=== FILE: README.md ===
# Linode docker-machine driver — a Dafny model

This project models the decision logic of the Linode driver for docker-machine
(`pkg/drivers/linode/linode.go`): how the driver validates and parses its options,
resolves a StackScript (a boot-customization script in Linode's catalog), builds and
submits the instance-creation request, picks the public and private IPv4 addresses
out of the reply, enables the network helper before the first boot when a private
address is wanted, maps Linode statuses to machine states, and carries out the
lifecycle calls.

The Go methods that change the driver while calling the API or checking options
(`SetConfigFromFlags`, `PreCreateCheck`, `Create`) are pure functions returning a
`Step`. A `Step` holds the driver record after the call, the remote calls made (in order, as
`Api.Call` events), and the error returned, if any. The record is returned even on
error, because the Go code updates fields before it returns errors. Remote replies,
the generated SSH key, the generated root password and JSON parsing are inputs or
function parameters. The accessors `GetSSHPort` and `GetSSHUsername`, which remember
their default in the record, return the answer paired with the updated record; the
lifecycle calls, which change nothing, return their calls and error as a `Reply`.

Modules, one file each:
- `Common` (common.dfy): `Option` and `Result`.
- `Text` (text.dfy): the parts of Go's `strconv` and `strings` the driver uses: `Atoi`, `%d`, `Split`, `SplitN(_, _, 2)`, `Contains`, `TrimSpace`.
- `Net` (net.dfy): IPv4 addresses, CIDR blocks, and the private-range test from section 3 of RFC 1918.
- `Api` (api.dfy): linodego records and the remote calls.
- `Machine` (machine.dfy): libmachine states and option values.
- `Linode` (driver.dfy): the driver record, its errors, and its accessors.
- `Config` (config.dfy): `SetConfigFromFlags`.
- `PreCreate` (precreate.dfy): `PreCreateCheck`.
- `Provision` (provision.dfy): `Create`.
- `Lifecycle` (lifecycle.dfy): `GetState`, `Start`, `Stop`, `Kill`, `Restart`, `Remove`.

Behaviour of the code worth knowing, as the model states it:
- **Address selection.** The loop keeps the last public address, because each match overwrites the field (linode.go:431-437). The same holds for the private address.
- **StackScript reference.** The reference is cut with `SplitN(s, "/", 2)` (linode.go:291), so the owner is the text before the first `/` and the label is everything after it, including any later `/`.
- **Fetch by id.** Every error from a fetch by id, whatever its kind, is reported as an unusable StackScript (linode.go:365-369).
- **Resolution by owner.** The listed script's label is adopted as the catalog returns it (linode.go:360-362). The client does not compare it with the requested label.
- **SSH user.** The default user is chosen lazily by `GetSSHUsername` (linode.go:249-259), not when the options are read.
- **Stale addresses.** `Create` checks the public-address field only after the loop (linode.go:439). A record that already held an address passes the check even when the reply has no public address. `CreateAddressFailures` is therefore stated for a fresh record, and `CreateRecordsAddresses` covers the general case.
- **StackScript data.** `json.Unmarshal` decodes into the map the record already holds (linode.go:302). An object's keys are added to it. The text `null` empties the map and is accepted. A value that is not a string is stored as "" and then reported as invalid JSON, so the record changes even though the options are rejected (`Config.StackScriptDataMerged`).
- **StackScript "0".** The reference "0" parses to id 0 (linode.go:287-289). Id 0 also means "no StackScript" (linode.go:363, 414), so this reference is silently ignored (`PreCreate.ZeroReferenceIgnored`).

## Model

| member | source | states |
|---|---|---|
| Text.FormatNat | pkg/drivers/linode/linode.go:498 | decimal rendering of a port is a non-empty run of digits without a leading zero |
| Text.DecimalValueOfFormatNat | pkg/drivers/linode/linode.go:498 | reading the decimal rendering back gives the number |
| Text.FormatInt | pkg/drivers/linode/linode.go:498 | `%d` rendering: a leading '-' exactly for negatives, then digits; a non-negative number is all digits with a leading '0' only for zero, and a negative one has no leading zero after the sign |
| Text.Atoi | pkg/drivers/linode/linode.go:287 | a text is accepted exactly when it is an optional sign then at least one digit (leading zeros allowed) whose signed value fits 64 bits, and then that value is the result |
| Text.AtoiExamples | pkg/drivers/linode/linode.go:287 | "007" is 7, "+5" is 5 and "-0" is 0; "", "+" and "alice/setup" are rejected, so only the last is read as an owner/label reference |
| Text.AtoiOfFormatInt | pkg/drivers/linode/linode.go:287-289 | every 64-bit integer printed with `%d` is read back by `Atoi` as itself |
| Text.Split | pkg/drivers/linode/linode.go:407 | `strings.Split` gives at least one piece and no piece contains the separator |
| Text.JoinSplit | pkg/drivers/linode/linode.go:406-412 | joining the split pieces with the separator restores the text |
| Text.SplitCount | pkg/drivers/linode/linode.go:406-412 | there is one more piece than there are separators |
| Text.IndexOf | pkg/drivers/linode/linode.go:291 | the found position holds the character and no earlier position does |
| Text.SplitN2 | pkg/drivers/linode/linode.go:291-297 | two parts exactly when the separator occurs; then the first part has no separator and part, separator and rest rebuild the text; otherwise the one part is the text |
| Text.ContainsIff | pkg/drivers/linode/linode.go:251 | the substring scan succeeds exactly when the pattern starts at some position |
| Text.TrimLeft | pkg/drivers/linode/linode.go:399 | the result is a suffix that does not start with white space, and only white space was dropped |
| Text.TrimRight | pkg/drivers/linode/linode.go:399 | the result is a prefix that does not end with white space, and only white space was dropped |
| Text.TrimSpace | pkg/drivers/linode/linode.go:399 | the trimmed key is the slice of the key left after dropping only white space before and after it, and has no white space at either end |
| Text.TrimSpaceIdempotent | pkg/drivers/linode/linode.go:399 | trimming the key twice is the same as trimming it once |
| Net.InBlockOctets | pkg/drivers/linode/linode.go:598-606 | for /8, /12 and /16 blocks, the masked comparison means: same first octet, plus the top half of the second octet (/12) or the whole second octet (/16) |
| Net.InBlock | pkg/drivers/linode/linode.go:598-606 | membership compares every octet with the block base under the prefix mask; an address is in every block based at itself |
| Net.IsPrivate | pkg/drivers/linode/linode.go:594-596 | membership in 10.0.0.0/8, 172.16.0.0/12 or 192.168.0.0/16; `IsPrivateIff` gives it in octet terms |
| Net.IsPrivateIff | pkg/drivers/linode/linode.go:594-596 | an address is private exactly when it is 10.x.x.x, 172.16.x.x through 172.31.x.x, or 192.168.x.x |
| Net.PrivateIPExamples | pkg/drivers/linode/linode_test.go:30-57 | 172.16.0.1, 192.168.0.1 and 10.0.0.1 are private; 1.1.1.1 is public; 10.0.0.1 is in 10.0.0.0/8 and not in 254.0.0.0/8 |
| Net.Format | pkg/drivers/linode/linode.go:433 | the dotted-decimal text of an address, at least seven characters; `FormatReadsBack` gives the round trip |
| Net.FormatReadsBack | pkg/drivers/linode/linode.go:433 | the dotted form of an address splits on '.' into four decimal fields whose values are the octets |
| Linode.NewDriver | pkg/drivers/linode/linode.go:74-85 | a fresh driver has the default image, type, region and swap size, and no address, instance or StackScript |
| Linode.UserAgent | pkg/drivers/linode/linode.go:98-103 | with no prefix the User-Agent is the base string; with one, it is the prefix, one space, then the base string |
| Linode.GetIP | pkg/drivers/linode/linode.go:135-140 | fails exactly when no address is cached; otherwise returns that non-empty address |
| Linode.GetSSHHostname | pkg/drivers/linode/linode.go:128-130 | the SSH host name is whatever `GetIP` answers |
| Linode.GetURL | pkg/drivers/linode/linode.go:489-499 | fails with `IPAddressNotSet` exactly when no address is cached; otherwise starts with "tcp://", the address and ':' |
| Linode.GetURLReadsBack | pkg/drivers/linode/linode.go:489-499 | the URL fails exactly when `GetIP` fails; otherwise it parses back into "tcp://", the cached address, ':' and a port text that `Atoi` reads as the Docker port |
| Linode.GetSSHPort | pkg/drivers/linode/linode.go:240-246 | the port is never 0, a configured port is kept, and the answer is remembered in the record |
| Linode.GetSSHPortStable | pkg/drivers/linode/linode.go:240-246 | an unset port becomes 22; asking again returns the same port and changes nothing |
| Linode.GetSSHUsername | pkg/drivers/linode/linode.go:249-259 | the user is never empty, a configured user is kept, and the answer is remembered in the record |
| Linode.GetSSHUsernameDefault | pkg/drivers/linode/linode.go:249-259 | an unset user becomes "core" exactly when the image name contains "linode/containerlinux", else "root"; asking again changes nothing |
| Config.ParseStackScript | pkg/drivers/linode/linode.go:285-298 | an integer text sets only the id; a non-integer without '/' is a syntax error; otherwise owner and label are the text before and after the first '/' and nothing else changes |
| Config.CopyFlags | pkg/drivers/linode/linode.go:264-277 | all fourteen option values are copied; the machine name, instance id, addresses and StackScript fields are kept |
| Config.SetConfigFromFlags | pkg/drivers/linode/linode.go:263-314 | no remote call is made; an empty token is always rejected; success implies the token was given |
| Config.SetConfigFailures | pkg/drivers/linode/linode.go:281-306 | each failure (missing token, malformed reference, undecodable data) happens exactly under its condition, and no other failure is possible |
| Config.DefaultLabel | pkg/drivers/linode/linode.go:309-311 | a non-empty label is kept; an empty one becomes the machine name |
| Config.SetConfigLabel | pkg/drivers/linode/linode.go:309-311 | on success the label is the given one, or else the machine name |
| Config.SetConfigCopies | pkg/drivers/linode/linode.go:264-277 | whatever the outcome, the record holds the thirteen copied option values other than the label as given, and keeps the machine name |
| Config.StackScriptById | pkg/drivers/linode/linode.go:287-289 | an integer reference sets the id and leaves owner and label as they were |
| Config.StackScriptByOwner | pkg/drivers/linode/linode.go:291-297 | an owner/label reference splits at the first '/', keeps any later '/' in the label, and leaves the id as it was |
| Config.SeparatorIsNotInteger | pkg/drivers/linode/linode.go:287-291 | a reference holding '/' is never accepted by `Atoi`, so it always takes the owner/label path |
| Config.DataIgnoredWithoutStackScript | pkg/drivers/linode/linode.go:285-307 | without a StackScript reference the result does not depend on the JSON decoder, and the stored data is untouched |
| Config.UnmarshalInto | pkg/drivers/linode/linode.go:302 | `json.Unmarshal` into an existing string map: an object's keys are added with their values and other keys keep theirs; `null` empties the map; malformed text and non-objects leave it alone; an error is reported exactly for malformed text, a non-object, or an object with a non-string value |
| Config.StackScriptDataMerged | pkg/drivers/linode/linode.go:300-306 | with a token and an accepted reference (an integer, or text holding a `/`), the options are accepted exactly when the data is `null` or an object of strings; the stored data is the old map plus the object's keys (also when a mistyped value makes it fail), empty after `null`, and unchanged for malformed text or a non-object |
| Config.TokenOnlyAccepted | pkg/drivers/linode/linode_test.go:13-28 | a fresh driver given only a token and a root password (other options at their defaults) is accepted |
| PreCreate.FirstByOwner | pkg/drivers/linode/linode.go:349-355 | the chosen script belongs to the owner and no earlier one does; none is chosen only when no script belongs to the owner |
| PreCreate.PreCreateCheck | pkg/drivers/linode/linode.go:323-372 | a given root password is kept and otherwise the generated one is adopted; the check fails for password generation exactly when none was given and generation failed; a failed catalog listing is returned unchanged; only the root password and the StackScript id, owner and label may change |
| PreCreate.ResolveByOwner | pkg/drivers/linode/linode.go:332-362 | one filtered list call; succeeds exactly when some listed script belongs to the owner, and then adopts the first such script's id, owner and label; otherwise reports not found |
| PreCreate.ResolveById | pkg/drivers/linode/linode.go:363-372 | one fetch by id and no listing; the id is kept; success adopts owner and label; a failed fetch is reported with the id |
| PreCreate.NoReferenceNoCalls | pkg/drivers/linode/linode.go:323-374 | without a reference the catalog is never called, and the check succeeds whenever a root password is available |
| PreCreate.PasswordPresent | pkg/drivers/linode/linode.go:323-330 | after success the root password is non-empty, given or generated |
| PreCreate.NumericReferenceExample | pkg/drivers/linode/linode.go:363-372 | the reference "123" becomes id 123 and is resolved by a single fetch of 123, without a listing |
| PreCreate.OwnerMismatchExample | pkg/drivers/linode/linode.go:349-358 | "alice/setup" against a catalog holding only bob's "setup" is not found |
| PreCreate.ZeroReferenceIgnored | pkg/drivers/linode/linode.go:287-289 | the reference "0" is accepted as id 0 and then ignored: the check succeeds with no catalog call and no StackScript |
| Provision.CommaList | pkg/drivers/linode/linode.go:406-412 | an empty list option is omitted; otherwise its pieces contain no comma and join back to the option |
| Provision.CreateRequest | pkg/drivers/linode/linode.go:391-418 | the request boots the instance exactly when no private address is wanted; it carries the trimmed key; the user and tag lists are comma-free pieces that join back to the options; the StackScript is sent only when an id is set |
| Provision.Classify | pkg/drivers/linode/linode.go:431-437 | the private field is untouched unless a private address is wanted; `ClassifyKeepsLastPublic` and `ClassifyKeepsLastPrivate` say which address each field ends with |
| Provision.ClassifyKeepsLastPublic | pkg/drivers/linode/linode.go:431-437 | the loop keeps the last public address in the instance's list, or the earlier value when the list has no public address |
| Provision.ClassifyKeepsLastPrivate | pkg/drivers/linode/linode.go:431-437 | when a private address is wanted the loop keeps the last private address in the list (or the earlier value if there is none); when none is wanted the private field is untouched |
| Provision.EnableNetworkHelper | pkg/drivers/linode/linode.go:458-477 | lists the configurations first; every boot directly follows the helper update of the same configuration; no boot after a failed update; list, update and boot errors are returned unchanged, an empty list as "config not found"; success means both the update and the boot went through, in that order, on the first configuration; each failure fixes the exact calls made: the list alone, list and update, or list, update and boot |
| Provision.Recorded | pkg/drivers/linode/linode.go:425-437 | the record takes the server's id, label and region, and its private address changes only when one is wanted; no field other than the id, label, region and the two addresses changes |
| Provision.AfterSubmit | pkg/drivers/linode/linode.go:425-484 | after submission: the address failures happen exactly when a field is empty; config calls happen only for private requests; an address failure makes no call, a helper failure makes exactly the helper's calls, no wait is made unless creation reaches it, and nothing is ever deleted; success happens exactly when the addresses were found, the helper sequence (if any) went through and the wait succeeded; once the wait is reached it is the last call, and its failure is reported as a wait failure with its error |
| Provision.Create | pkg/drivers/linode/linode.go:384-423 | no key means no call and a key error; a refused submission returns the remote error unchanged with the record untouched; otherwise the record is the one `Recorded` gives |
| Provision.CreateSendsRequestOnce | pkg/drivers/linode/linode.go:385-423 | no key means no call; otherwise the first call is the create request, booted exactly when no private address is requested, and no later call creates another instance |
| Provision.CreateRecordsAddresses | pkg/drivers/linode/linode.go:425-437 | the record takes the server's id, label and region; the public address is the last non-private one reported; the private address changes only when requested |
| Provision.CreateAddressFailures | pkg/drivers/linode/linode.go:439-445 | on a fresh record: a missing public address fails exactly when the reply has none; a missing private address fails exactly when one was requested, a public one exists and the reply has none; in both cases the creation call is the only call and the instance id is already recorded |
| Provision.CreateOrdering | pkg/drivers/linode/linode.go:458-477 | in every run, each boot comes straight after the helper update of the same configuration, no boot follows a failed update, and without a private request no configuration call is made |
| Provision.CreatePrivateSequence | pkg/drivers/linode/linode.go:458-477 | an empty configuration list fails with no boot; otherwise list, update of the first configuration, and boot of that configuration follow the creation in that order |
| Provision.CreateSuccess | pkg/drivers/linode/linode.go:384-484 | creation succeeds exactly when the key exists, the submission is accepted, the addresses are found, the helper sequence (for a private request) goes through and the wait succeeds; a failed wait is reported with its error after the wait call; success ends with the wait for "running" |
| Provision.PrivateRequestExample | pkg/drivers/linode/linode.go:431-477 | a private request answered with 10.0.0.5 and 203.0.113.9 records 203.0.113.9 as public and 10.0.0.5 as private, and updates configuration 9 before booting it |
| Provision.OnlyPrivateAddressExample | pkg/drivers/linode/linode.go:439-441 | a reply holding only 10.0.0.5, with no private request, fails for want of a public address |
| Lifecycle.StateOf | pkg/drivers/linode/linode.go:508-527 | exactly which statuses map to Running, Stopped, Stopping and Starting, and None exactly for statuses the driver does not name |
| Lifecycle.GetState | pkg/drivers/linode/linode.go:502-528 | always one fresh fetch; the Error state and an error exactly when the fetch fails |
| Lifecycle.GetStateTotal | pkg/drivers/linode/linode.go:502-528 | every reply gives one of six states; a failed fetch is never None; a status is mapped by the table |
| Lifecycle.Start | pkg/drivers/linode/linode.go:531-535 | one boot call with configuration 0; fails exactly when the remote call fails, returning its error unchanged |
| Lifecycle.Stop | pkg/drivers/linode/linode.go:538-542 | one shutdown call; fails exactly when the remote call fails, returning its error unchanged |
| Lifecycle.Kill | pkg/drivers/linode/linode.go:568-572 | one shutdown call; fails exactly when the remote call fails, returning its error unchanged |
| Lifecycle.KillIsStop | pkg/drivers/linode/linode.go:540 | killing and stopping are the same call with the same outcome for every reply |
| Lifecycle.Restart | pkg/drivers/linode/linode.go:561-565 | a single reboot call with configuration 0, not a stop followed by a start; fails exactly when the remote call fails, returning its error unchanged |
| Lifecycle.Remove | pkg/drivers/linode/linode.go:545-557 | one delete call; succeeds exactly when the delete succeeds or answers an API 404; any other error is returned unchanged |
| Lifecycle.RemoveAlreadyGone | pkg/drivers/linode/linode.go:548-553 | a 404 from the API counts as removed; a transport error is returned |

## Left out

- The API client handle (`getClient`, linode.go:88-110) is left out: OAuth transport, lazy construction and debug mode. Only the User-Agent text is modelled (`Linode.UserAgent`); the linodego version is a parameter.
- `createRandomRootPassword` (linode.go:112-120) needs cryptographic randomness. Its outcome is the `generated` input of `PreCreateCheck`.
- `createSSHKey` and `publicSSHKeyPath` (linode.go:574-590) read and write local files. The public key is the `publicKey` input of `Create`.
- `WaitForInstanceStatus` (linode.go:480) is a timed polling loop. The model records the call with its 180-second limit and takes its outcome as an input; time is not modelled.
- JSON text is not parsed. The parser is a parameter that reports what the StackScript data holds: malformed text, `null`, a string-keyed object, or another value. `Config.UnmarshalInto` models what `json.Unmarshal` then does to the map. Encoding the list filter (linode.go:336-344) cannot fail for a string map, so the filter is the structured `StackScriptFilter`.
- Text parsing of the three CIDR constants by `net.ParseCIDR` (linode.go:599-604) is not modelled. The blocks are given as (base, prefix length) constants, so the parse-error branch cannot arise for them.
- `GetCreateFlags` (linode.go:144-237) is a declarative table. Only the defaults the unit test relies on appear, in `Config.TokenOnlyFlags`.
- `SetSwarmConfigFromFlags` (linode.go:279) sets framework fields outside this driver. It is not modelled.
- Logging, and the dead `if err != nil` after address selection (linode.go:454-456), are not modelled. That error is always nil at that point.
- `normalizeInstanceLabel` is exercised only by linode_test.go:59-71. Its implementation is not part of this model.
- main.go only registers the plugin.
- Boot-configuration update options: only the network-helper flag and the configuration's id and label are represented. The other settings copied by `GetUpdateOptions` are not.
- Linode status wire strings are not modelled. A status outside the eleven the driver names is `Unlisted`.
- Integer width: Go's 64-bit `int` only matters where `Atoi` range-checks, and that check is modelled. Other integers are unbounded.
- Text is a sequence of Unicode scalar values, not bytes. Invalid UTF-8 in a public key is not modelled.
- Nil and empty slices and maps are not distinguished. Both are left out of the request, so `null` data is modelled as the empty map.

=== FILE: api.dfy ===
/**
 * The slice of the Linode API client (linodego) the driver talks to: the
 * records it sends and receives, and the remote calls themselves as events.
 * Nothing here is interpreted; replies are supplied to the model as inputs.
 */
module Api {
  import Net

  /**
   * A failed remote call: an API error with its HTTP code, a transport
   * failure, or a wait whose timeout ran out before the awaited status.
   */
  datatype RemoteError =
    | ApiError(code: int, message: string)
    | TransportError(message: string)
    | DeadlineExceeded

  /** Linode's instance status vocabulary, closed by a fallback arm. */
  datatype InstanceStatus =
    | Booting | Running | Offline | ShuttingDown | Rebooting | Provisioning
    | Deleting | Migrating | Rebuilding | Cloning | Restoring
    | Unlisted(name: string)   // any status the driver does not name (resizing, ...)

  datatype Instance = Instance(
    id: int,
    linodeLabel: string,
    region: string,
    ipv4: seq<Net.Address>,
    status: InstanceStatus)

  /** A boot configuration profile; only what the driver reads or changes. */
  datatype InstanceConfig = InstanceConfig(id: int, configLabel: string, networkHelper: bool)

  datatype StackScript = StackScript(id: int, username: string, scriptLabel: string)

  /** The `X-Filter` the driver sends when listing StackScripts. */
  datatype StackScriptFilter = StackScriptFilter(username: string, scriptLabel: string)

  /**
   * `InstanceCreateOptions`. Omitted optional fields are the empty sequence,
   * the empty map or 0, which the client leaves out of the request.
   */
  datatype CreateOptions = CreateOptions(
    region: string,
    instanceType: string,
    instanceLabel: string,
    rootPass: string,
    authorizedKeys: seq<string>,
    authorizedUsers: seq<string>,
    image: string,
    swapSize: int,
    privateIP: bool,
    booted: bool,
    tags: seq<string>,
    stackScriptID: int,
    stackScriptData: map<string, string>)

  /** One remote call, in the order the driver issues them. */
  datatype Call =
    | ListStackScripts(filter: StackScriptFilter)
    | GetStackScript(scriptID: int)
    | CreateInstance(options: CreateOptions)
    | ListInstanceConfigs(linodeID: int)
    | UpdateInstanceConfig(linodeID: int, configID: int, update: InstanceConfig)
    | BootInstance(linodeID: int, configID: int)
    | WaitForInstanceStatus(linodeID: int, status: InstanceStatus, timeoutSeconds: int)
    | GetInstance(linodeID: int)
    | ShutdownInstance(linodeID: int)
    | RebootInstance(linodeID: int, configID: int)
    | DeleteInstance(linodeID: int)
  {
    /** Calls that read or change an instance's boot configurations. */
    predicate TouchesConfigs() {
      ListInstanceConfigs? || UpdateInstanceConfig? || BootInstance?
    }
  }
}

=== FILE: common.dfy ===
/** `Option` and `Result`, shared by every module of the model. */
module Common {

  /** A value that may be absent: Go's `(T, bool)` and nil-pointer idioms. */
  datatype Option<+T> = None | Some(value: T)

  /** Either a value or an error: Go's `(T, error)` return pairs. */
  datatype Result<+T, +E> = Ok(value: T) | Err(error: E)
}

=== FILE: config.dfy ===
/**
 * `SetConfigFromFlags`: copying the option values into the driver, requiring
 * a token, parsing the StackScript reference and its JSON data, and
 * defaulting the instance label to the machine name.
 */
module Config {
  import opened Common
  import opened Text
  import Machine
  import opened Linode

  /**
   * What JSON parsing finds in the StackScript data text, as far as decoding
   * into a string map cares:
   * - `Malformed`: not JSON at all (the text is rejected before anything is stored);
   * - `Null`: the literal `null`;
   * - `Object`: an object, with each key's string value; a key whose value is
   *   not a string is listed with "" and makes `mistyped` true;
   * - `NotAnObject`: a number, string, boolean or array.
   */
  datatype Decoded =
    | Malformed
    | Null
    | Object(entries: map<string, string>, mistyped: bool)
    | NotAnObject

  /** The decoded data is reported as invalid JSON. */
  predicate Rejected(v: Decoded) {
    v.Malformed? || v.NotAnObject? || (v.Object? && v.mistyped)
  }

  /** JSON parsing of the StackScript data text, abstracted. */
  type JsonDecoder = string -> Decoded

  /**
   * `json.Unmarshal` into an existing string map: the map after the call and
   * whether an error is returned. An object's keys are added to the map (a
   * mistyped value is still stored, as "", and then reported); `null` resets
   * the map; anything else leaves the map alone and is an error.
   */
  function UnmarshalInto(m: map<string, string>, v: Decoded): (r: (map<string, string>, bool))
    ensures r.1 <==> Rejected(v)
    ensures v.Null? ==> r.0 == map[]
    ensures v.Object? ==>
      && r.0.Keys == m.Keys + v.entries.Keys
      && (forall k :: k in v.entries ==> r.0[k] == v.entries[k])
      && (forall k :: k in m && k !in v.entries ==> r.0[k] == m[k])
    ensures v.Malformed? || v.NotAnObject? ==> r.0 == m
  {
    match v
    case Malformed => (m, true)
    case Null => (map[], false)
    case Object(entries, mistyped) => (m + entries, mistyped)
    case NotAnObject => (m, true)
  }

  const StackScriptSeparator: char := '/'

  /** The record holds every copied option value as given, the label aside. */
  predicate HoldsOptions(d: Driver, f: Machine.Flags) {
    && d.apiToken == f.token && d.region == f.region && d.instanceType == f.instanceType
    && d.authorizedUsers == f.authorizedUsers && d.rootPassword == f.rootPass
    && d.sshPort == f.sshPort && d.sshUser == f.sshUser && d.instanceImage == f.image
    && d.swapSize == f.swapSize && d.dockerPort == f.dockerPort
    && d.createPrivateIP == f.createPrivateIP && d.userAgentPrefix == f.userAgentPrefix
    && d.tags == f.tags
  }

  /**
   * Every option value is copied into the record before anything is
   * checked; the machine's identity, addresses and StackScript are kept.
   */
  function CopyFlags(d: Driver, f: Machine.Flags): (r: Driver)
    ensures HoldsOptions(r, f) && r.instanceLabel == f.instanceLabel
    ensures r.machineName == d.machineName && r.storePath == d.storePath
    ensures r.instanceID == d.instanceID && r.ipAddress == d.ipAddress && r.privateIPAddress == d.privateIPAddress
    ensures r.stackScriptID == d.stackScriptID && r.stackScriptUser == d.stackScriptUser
    ensures r.stackScriptLabel == d.stackScriptLabel && r.stackScriptData == d.stackScriptData
  {
    d.(apiToken := f.token, region := f.region, instanceType := f.instanceType,
       authorizedUsers := f.authorizedUsers, rootPassword := f.rootPass,
       sshPort := f.sshPort, sshUser := f.sshUser, instanceImage := f.image,
       instanceLabel := f.instanceLabel, swapSize := f.swapSize,
       dockerPort := f.dockerPort, createPrivateIP := f.createPrivateIP,
       userAgentPrefix := f.userAgentPrefix, tags := f.tags)
  }

  /**
   * The StackScript reference: an integer is an id; otherwise it must split
   * at its first '/' into owner and label.
   */
  function ParseStackScript(d: Driver, text: string): (r: Result<Driver, Failure>)
    ensures Atoi(text).Some? ==> r == Ok(d.(stackScriptID := Atoi(text).value))
    ensures Atoi(text).None? && StackScriptSeparator !in text ==> r == Err(StackScriptSyntax)
    ensures Atoi(text).None? && StackScriptSeparator in text ==>
      && r.Ok?
      && r.value == d.(stackScriptUser := r.value.stackScriptUser, stackScriptLabel := r.value.stackScriptLabel)
      && StackScriptSeparator !in r.value.stackScriptUser
      && r.value.stackScriptUser + [StackScriptSeparator] + r.value.stackScriptLabel == text
  {
    match Atoi(text)
    case Some(id) => Ok(d.(stackScriptID := id))
    case None =>
      var parts := SplitN2(text, StackScriptSeparator);
      if |parts| != 2 then Err(StackScriptSyntax)
      else Ok(d.(stackScriptUser := parts[0], stackScriptLabel := parts[1]))
  }

  /**
   * `SetConfigFromFlags`. On failure the record already holds the copied
   * option values, as the source leaves it; no remote call is ever made.
   */
  function SetConfigFromFlags(d: Driver, f: Machine.Flags, decode: JsonDecoder): (r: Step)
    ensures r.calls == []
    ensures f.token == "" ==> r.failure == Some(TokenMissing)
    ensures r.failure.None? ==> r.driver.apiToken == f.token != ""
  {
    var d1 := CopyFlags(d, f);
    if d1.apiToken == "" then Step(d1, [], Some(TokenMissing))
    else if f.stackScript == "" then Step(DefaultLabel(d1), [], None)
    else
      match ParseStackScript(d1, f.stackScript)
      case Err(e) => Step(d1, [], Some(e))
      case Ok(d2) =>
        if f.stackScriptData == "" then Step(DefaultLabel(d2), [], None)
        else
          var (data, failed) := UnmarshalInto(d2.stackScriptData, decode(f.stackScriptData));
          var d3 := d2.(stackScriptData := data);
          if failed then Step(d3, [], Some(StackScriptDataNotJson))
          else Step(DefaultLabel(d3), [], None)
  }

  /** An empty instance label becomes the machine name. */
  function DefaultLabel(d: Driver): (r: Driver)
    ensures r.instanceLabel != "" || d.machineName == ""
    ensures d.instanceLabel == "" ==> r == d.(instanceLabel := d.machineName)
    ensures d.instanceLabel != "" ==> r == d
  {
    if |d.instanceLabel| == 0 then d.(instanceLabel := d.machineName) else d
  }

  /** Exactly when the options are accepted, and which failure each rejection reports. */
  lemma SetConfigFailures(d: Driver, f: Machine.Flags, decode: JsonDecoder)
    ensures var r := SetConfigFromFlags(d, f, decode);
      && (r.failure == Some(TokenMissing) <==> f.token == "")
      && (r.failure == Some(StackScriptSyntax) <==>
            f.token != "" && f.stackScript != "" && Atoi(f.stackScript).None?
            && StackScriptSeparator !in f.stackScript)
      && (r.failure == Some(StackScriptDataNotJson) <==>
            && f.token != "" && f.stackScript != ""
            && (Atoi(f.stackScript).Some? || StackScriptSeparator in f.stackScript)
            && f.stackScriptData != "" && Rejected(decode(f.stackScriptData)))
      && (r.failure.None? || r.failure.value in {TokenMissing, StackScriptSyntax, StackScriptDataNotJson})
  {
  }

  /**
   * Whatever the outcome, the record holds every copied option value as
   * given (the label aside) and keeps the machine name.
   */
  lemma SetConfigCopies(d: Driver, f: Machine.Flags, decode: JsonDecoder)
    ensures var r := SetConfigFromFlags(d, f, decode);
      HoldsOptions(r.driver, f) && r.driver.machineName == d.machineName
  {
    var d1 := CopyFlags(d, f);
    var r := SetConfigFromFlags(d, f, decode);
    if d1.apiToken == "" || f.stackScript == "" {
      assert r.driver == d1 || r.driver == DefaultLabel(d1);
    } else {
      var p := ParseStackScript(d1, f.stackScript);
      if p.Ok? {
        var d2 := p.value;
        assert HoldsOptions(d2, f) && d2.machineName == d.machineName;
        if f.stackScriptData == "" {
          assert r.driver == DefaultLabel(d2);
        } else {
          var d3 := d2.(stackScriptData := UnmarshalInto(d2.stackScriptData, decode(f.stackScriptData)).0);
          assert r.driver == d3 || r.driver == DefaultLabel(d3);
        }
      }
    }
  }

  /**
   * On success the label is the one given, or the machine name when none was
   * given.
   */
  lemma SetConfigLabel(d: Driver, f: Machine.Flags, decode: JsonDecoder)
    ensures var r := SetConfigFromFlags(d, f, decode);
      r.failure.None? ==>
        r.driver.instanceLabel == (if f.instanceLabel == "" then d.machineName else f.instanceLabel)
  {
    var d1 := CopyFlags(d, f);
    if d1.apiToken != "" && f.stackScript != "" {
      var p := ParseStackScript(d1, f.stackScript);
      if p.Ok? {
        var d2 := p.value;
        assert d2.instanceLabel == f.instanceLabel && d2.machineName == d.machineName;
        if f.stackScriptData != "" && !Rejected(decode(f.stackScriptData)) {
          var d3 := d2.(stackScriptData := UnmarshalInto(d2.stackScriptData, decode(f.stackScriptData)).0);
          assert SetConfigFromFlags(d, f, decode).driver == DefaultLabel(d3);
        }
      }
    }
  }

  /**
   * An integer reference sets only the StackScript id: owner and label keep
   * their earlier values.
   */
  lemma StackScriptById(d: Driver, f: Machine.Flags, decode: JsonDecoder)
    requires f.token != "" && Atoi(f.stackScript).Some?
    ensures var r := SetConfigFromFlags(d, f, decode);
      r.failure.None? ==>
        && r.driver.stackScriptID == Atoi(f.stackScript).value
        && r.driver.stackScriptUser == d.stackScriptUser
        && r.driver.stackScriptLabel == d.stackScriptLabel
  {
  }

  /**
   * Any other reference containing '/' is owner and label: the owner is the
   * text before the first '/', the label everything after it (which may hold
   * more '/'), and the id keeps its earlier value.
   */
  lemma StackScriptByOwner(d: Driver, f: Machine.Flags, decode: JsonDecoder)
    requires f.token != "" && StackScriptSeparator in f.stackScript
    ensures var r := SetConfigFromFlags(d, f, decode);
      r.failure.None? ==>
        && StackScriptSeparator !in r.driver.stackScriptUser
        && r.driver.stackScriptUser + [StackScriptSeparator] + r.driver.stackScriptLabel == f.stackScript
        && r.driver.stackScriptID == d.stackScriptID
  {
    SeparatorIsNotInteger(f.stackScript);
    var d1 := CopyFlags(d, f);
    var p := ParseStackScript(d1, f.stackScript);
    var r := SetConfigFromFlags(d, f, decode);
    assert p.Ok? && p.value.stackScriptID == d.stackScriptID;
    var d2 := p.value;
    if f.stackScriptData == "" {
      assert r.driver == DefaultLabel(d2);
    } else if !Rejected(decode(f.stackScriptData)) {
      assert r.driver == DefaultLabel(d2.(stackScriptData := UnmarshalInto(d2.stackScriptData, decode(f.stackScriptData)).0));
    }
  }

  /** A reference holding '/' is never read as an id: '/' is neither a sign nor a digit. */
  lemma SeparatorIsNotInteger(s: string)
    requires StackScriptSeparator in s
    ensures Atoi(s).None?
  {
    var k :| 0 <= k < |s| && s[k] == StackScriptSeparator;
    var m := Magnitude(s);
    assert m[k - (|s| - |m|)] == s[k];
  }

  /**
   * With an accepted reference, the stored StackScript data is what
   * `json.Unmarshal` leaves in the map, whether or not it then reports an
   * error: an object's keys are added (a decoded key replacing an earlier
   * value, a mistyped one stored as "" and rejected), `null` empties the map
   * and is accepted, and text that is not an object leaves the map alone and
   * is rejected.
   */
  lemma StackScriptDataMerged(d: Driver, f: Machine.Flags, decode: JsonDecoder)
    requires f.token != "" && f.stackScript != "" && f.stackScriptData != ""
    ensures Atoi(f.stackScript).Some? || StackScriptSeparator in f.stackScript ==>
      var r := SetConfigFromFlags(d, f, decode);
      var v := decode(f.stackScriptData);
      && (r.failure.None? <==> !Rejected(v))
      && (v.Object? ==> r.driver.stackScriptData == d.stackScriptData + v.entries)
      && (v.Null? ==> r.driver.stackScriptData == map[])
      && (v.Malformed? || v.NotAnObject? ==> r.driver.stackScriptData == d.stackScriptData)
  {
    if Atoi(f.stackScript).Some? || StackScriptSeparator in f.stackScript {
      var d1 := CopyFlags(d, f);
      if StackScriptSeparator in f.stackScript {
        SeparatorIsNotInteger(f.stackScript);
      }
      var p := ParseStackScript(d1, f.stackScript);
      assert p.Ok? && p.value.stackScriptData == d.stackScriptData;
      var v := decode(f.stackScriptData);
      var u := UnmarshalInto(d.stackScriptData, v);
      var d3 := p.value.(stackScriptData := u.0);
      var r := SetConfigFromFlags(d, f, decode);
      assert r == if u.1 then Step(d3, [], Some(StackScriptDataNotJson)) else Step(DefaultLabel(d3), [], None);
      assert r.driver.stackScriptData == u.0;
    }
  }

  /**
   * StackScript data is decoded only when a StackScript was given: without
   * one, the outcome does not depend on the decoder at all, and the stored
   * data is untouched.
   */
  lemma DataIgnoredWithoutStackScript(d: Driver, f: Machine.Flags, decode1: JsonDecoder, decode2: JsonDecoder)
    requires f.stackScript == ""
    ensures SetConfigFromFlags(d, f, decode1) == SetConfigFromFlags(d, f, decode2)
    ensures SetConfigFromFlags(d, f, decode1).driver.stackScriptData == d.stackScriptData
  {
  }

  /** The option values a fresh driver is given when only a token and root password are set. */
  function TokenOnlyFlags(): (f: Machine.Flags) {
    Machine.Flags(
      token := "PROJECT", region := DefaultRegion, instanceType := DefaultInstanceType,
      authorizedUsers := "", rootPass := "ROOTPASS", sshPort := DefaultSSHPort, sshUser := "",
      image := DefaultInstanceImage, instanceLabel := "", swapSize := DefaultSwapSize,
      dockerPort := DefaultDockerPort, createPrivateIP := false, userAgentPrefix := "",
      tags := "", stackScript := "", stackScriptData := "")
  }

  /** A token and root password on a fresh driver are accepted. */
  lemma TokenOnlyAccepted(decode: JsonDecoder)
    ensures SetConfigFromFlags(NewDriver("", ""), TokenOnlyFlags(), decode).failure.None?
  {
  }
}

=== FILE: driver.dfy ===
/**
 * The Linode driver's state record and its small accessors: identity,
 * User-Agent, the cached public address, the Docker URL and the SSH defaults.
 */
module Linode {
  import opened Common
  import opened Text
  import Api

  const DefaultSSHPort: int := 22
  const DefaultSSHUser: string := "root"
  const DefaultInstanceImage: string := "linode/ubuntu18.04"
  const DefaultRegion: string := "us-east"
  const DefaultInstanceType: string := "g6-standard-4"
  const DefaultSwapSize: int := 512
  const DefaultDockerPort: int := 2376
  const ContainerLinuxSSHUser: string := "core"
  const ContainerLinuxImageMarker: string := "linode/containerlinux"

  /** The package's `VERSION` variable. */
  const Version: string := "devel"

  /**
   * The driver record: the Linode fields plus the framework's base fields the
   * driver reads (machine name, store path, SSH user). The lazily built API
   * client handle is not part of the record.
   */
  datatype Driver = Driver(
    machineName: string,
    storePath: string,
    sshUser: string,
    apiToken: string,
    userAgentPrefix: string,
    ipAddress: string,
    privateIPAddress: string,
    createPrivateIP: bool,
    dockerPort: int,
    instanceID: int,
    instanceLabel: string,
    region: string,
    instanceType: string,
    rootPassword: string,
    authorizedUsers: string,
    sshPort: int,
    instanceImage: string,
    swapSize: int,
    stackScriptID: int,
    stackScriptUser: string,
    stackScriptLabel: string,
    stackScriptData: map<string, string>,
    tags: string)

  /** The errors the driver returns, one per `return` site. */
  datatype Failure =
    | TokenMissing
    | StackScriptSyntax
    | StackScriptDataNotJson
    | PasswordGenerationFailed
    | StackScriptNotFound(username: string, scriptLabel: string)
    | StackScriptUnusable(scriptID: int, cause: Api.RemoteError)
    | KeyMaterialUnavailable
    | Remote(cause: Api.RemoteError)
    | PublicAddressNotFound
    | PrivateAddressNotFound
    | ConfigNotFound(linodeID: int)
    | WaitFailed(cause: Api.RemoteError)
    | IPAddressNotSet

  /** What a driver method leaves behind: the updated record, the remote calls made, the error. */
  datatype Step = Step(driver: Driver, calls: seq<Api.Call>, failure: Option<Failure>)

  /** `NewDriver`: the defaults a fresh driver starts from. */
  function NewDriver(hostName: string, storePath: string): (d: Driver)
    ensures d.machineName == hostName && d.storePath == storePath
    ensures d.instanceImage == DefaultInstanceImage && d.instanceType == DefaultInstanceType
    ensures d.region == DefaultRegion && d.swapSize == DefaultSwapSize
    ensures d.ipAddress == "" && d.privateIPAddress == "" && d.instanceID == 0
    ensures d.stackScriptID == 0 && d.stackScriptUser == "" && d.stackScriptData == map[]
  {
    Driver(
      machineName := hostName, storePath := storePath, sshUser := "",
      apiToken := "", userAgentPrefix := "", ipAddress := "", privateIPAddress := "",
      createPrivateIP := false, dockerPort := 0, instanceID := 0, instanceLabel := "",
      region := DefaultRegion, instanceType := DefaultInstanceType, rootPassword := "",
      authorizedUsers := "", sshPort := 0, instanceImage := DefaultInstanceImage,
      swapSize := DefaultSwapSize, stackScriptID := 0, stackScriptUser := "",
      stackScriptLabel := "", stackScriptData := map[], tags := "")
  }

  function DriverName(): (name: string) {
    "linode"
  }

  /** The User-Agent the driver's own requests carry, before any prefix. */
  function BaseUserAgent(clientVersion: string): (ua: string) {
    "docker-machine-driver-" + DriverName() + "/" + Version + " linodego/" + clientVersion
  }

  /**
   * The User-Agent set on the API client: the base string, preceded by the
   * configured prefix and one space when a prefix is configured.
   */
  function UserAgent(prefix: string, clientVersion: string): (ua: string)
    ensures |prefix| == 0 ==> ua == BaseUserAgent(clientVersion)
    ensures |prefix| > 0 ==>
      && HasPrefix(ua, prefix + " ")
      && ua[|prefix| + 1..] == BaseUserAgent(clientVersion)
  {
    var ua := BaseUserAgent(clientVersion);
    if |prefix| > 0 then prefix + " " + ua else ua
  }

  /** `GetIP`: the cached public address, which must have been set. */
  function GetIP(d: Driver): (r: Result<string, Failure>)
    ensures r.Err? <==> d.ipAddress == ""
    ensures r.Err? ==> r.error == IPAddressNotSet
    ensures r.Ok? ==> r.value == d.ipAddress && |r.value| > 0
  {
    if d.ipAddress == "" then Err(IPAddressNotSet) else Ok(d.ipAddress)
  }

  /** `GetSSHHostname` is the public address. */
  function GetSSHHostname(d: Driver): (r: Result<string, Failure>)
    ensures r == GetIP(d)
  {
    GetIP(d)
  }

  /** `GetURL`: `tcp://<address>:<docker port>`, failing as `GetIP` does. */
  function GetURL(d: Driver): (r: Result<string, Failure>)
    ensures r.Err? <==> d.ipAddress == ""
    ensures r.Err? ==> r == Err(IPAddressNotSet)
    ensures r.Ok? ==> HasPrefix(r.value, "tcp://" + d.ipAddress + ":")
  {
    match GetIP(d)
    case Err(e) => Err(e)
    case Ok(ip) =>
      if ip == "" then Ok("")
      else Ok("tcp://" + ip + ":" + FormatInt(d.dockerPort))
  }

  /**
   * The URL decodes back into its parts: the scheme, the cached address, a
   * colon, and a port text that `strconv.Atoi` reads as the Docker port.
   * It fails exactly when no address is cached, and is never empty.
   */
  lemma GetURLReadsBack(d: Driver)
    requires MinInt <= d.dockerPort <= MaxInt
    ensures GetURL(d).Err? <==> d.ipAddress == ""
    ensures GetURL(d).Err? ==> GetURL(d).error == IPAddressNotSet
    ensures GetURL(d).Ok? ==>
      var u, n := GetURL(d).value, |d.ipAddress|;
      && |u| > 7 + n
      && u[..6] == "tcp://"
      && u[6..6 + n] == d.ipAddress
      && u[6 + n] == ':'
      && Atoi(u[7 + n..]) == Some(d.dockerPort)
  {
    if d.ipAddress != "" {
      var u := GetURL(d).value;
      var n, port := |d.ipAddress|, FormatInt(d.dockerPort);
      var head := "tcp://" + d.ipAddress + ":";
      assert u == head + port && |head| == 7 + n;
      assert u[..6] == "tcp://" && u[6..6 + n] == d.ipAddress && u[6 + n] == ':';
      assert u[7 + n..] == port;
      AtoiOfFormatInt(d.dockerPort);
    }
  }

  /** `GetSSHPort`: the configured port, or 22 (remembered) when none is set. */
  function GetSSHPort(d: Driver): (r: (int, Driver))
    ensures r.0 != 0
    ensures d.sshPort != 0 ==> r.0 == d.sshPort
    ensures r.1 == d.(sshPort := r.0)
  {
    if d.sshPort == 0 then (DefaultSSHPort, d.(sshPort := DefaultSSHPort)) else (d.sshPort, d)
  }

  /** Asking again returns the same port and changes nothing further. */
  lemma GetSSHPortStable(d: Driver)
    ensures GetSSHPort(GetSSHPort(d).1) == (GetSSHPort(d).0, GetSSHPort(d).1)
    ensures d.sshPort == 0 ==> GetSSHPort(d).0 == DefaultSSHPort
  {
  }

  /**
   * `GetSSHUsername`: the configured user, or (remembered) "core" for
   * Container Linux images and "root" for every other image.
   */
  function GetSSHUsername(d: Driver): (r: (string, Driver))
    ensures |r.0| > 0
    ensures d.sshUser != "" ==> r.0 == d.sshUser
    ensures r.1 == d.(sshUser := r.0)
  {
    if d.sshUser == "" then
      var user := if Contains(d.instanceImage, ContainerLinuxImageMarker)
        then ContainerLinuxSSHUser else DefaultSSHUser;
      (user, d.(sshUser := user))
    else (d.sshUser, d)
  }

  /**
   * With no user configured, the default is "core" exactly when the image
   * name contains the Container Linux marker at some position, else "root";
   * asking again returns the same user and changes nothing further.
   */
  lemma GetSSHUsernameDefault(d: Driver)
    ensures d.sshUser == "" ==>
      (GetSSHUsername(d).0 == ContainerLinuxSSHUser <==>
        exists i :: 0 <= i <= |d.instanceImage| && HasPrefix(d.instanceImage[i..], ContainerLinuxImageMarker))
    ensures d.sshUser == "" ==> GetSSHUsername(d).0 in {ContainerLinuxSSHUser, DefaultSSHUser}
    ensures GetSSHUsername(GetSSHUsername(d).1) == (GetSSHUsername(d).0, GetSSHUsername(d).1)
  {
    ContainsIff(d.instanceImage, ContainerLinuxImageMarker);
  }
}

=== FILE: lifecycle.dfy ===
/**
 * Lifecycle operations on an existing instance: reading its state, and
 * start, stop, kill, restart and remove. Each is one remote call whose
 * reply is an input.
 */
module Lifecycle {
  import opened Common
  import Api
  import Machine
  import opened Linode

  /** The configuration id meaning "the instance's default boot configuration". */
  const DefaultConfigID: int := 0

  /** HTTP status the API uses for a missing resource. */
  const NotFound: int := 404

  /** Calls made and the error returned by a lifecycle operation. */
  datatype Reply = Reply(calls: seq<Api.Call>, failure: Option<Failure>)

  /** Calls made, the state reported and the error returned by `GetState`. */
  datatype StateReply = StateReply(calls: seq<Api.Call>, state: Machine.State, failure: Option<Failure>)

  /**
   * Linode status to machine state: running is Running; offline, rebuilding
   * and migrating are Stopped; shutting down and deleting are Stopping;
   * provisioning, rebooting, booting, cloning and restoring are Starting;
   * any other status is None.
   */
  function StateOf(s: Api.InstanceStatus): (st: Machine.State)
    ensures st == Machine.Running <==> s.Running?
    ensures st == Machine.Stopped <==> s.Offline? || s.Rebuilding? || s.Migrating?
    ensures st == Machine.Stopping <==> s.ShuttingDown? || s.Deleting?
    ensures st == Machine.Starting <==> s.Provisioning? || s.Rebooting? || s.Booting? || s.Cloning? || s.Restoring?
    ensures st == Machine.None <==> s.Unlisted?
  {
    match s
    case Running => Machine.Running
    case Offline | Rebuilding | Migrating => Machine.Stopped
    case ShuttingDown | Deleting => Machine.Stopping
    case Provisioning | Rebooting | Booting | Cloning | Restoring => Machine.Starting
    case _ => Machine.None
  }

  /**
   * `GetState`: always fetches the instance afresh; a failed fetch is the
   * Error state with the fetch's error, a successful one maps the status
   * without error.
   */
  function GetState(d: Driver, fetched: Result<Api.Instance, Api.RemoteError>): (r: StateReply)
    ensures r.calls == [Api.GetInstance(d.instanceID)]
    ensures r.state == Machine.Error <==> fetched.Err?
    ensures r.failure.Some? <==> fetched.Err?
    ensures fetched.Err? ==> r.failure == Some(Remote(fetched.error))
  {
    var calls := [Api.GetInstance(d.instanceID)];
    match fetched
    case Err(e) => StateReply(calls, Machine.Error, Some(Remote(e)))
    case Ok(inst) => StateReply(calls, StateOf(inst.status), None)
  }

  /**
   * Every reply maps to exactly one of six states, and a failed fetch is
   * never reported as the unknown state None.
   */
  lemma GetStateTotal(d: Driver, fetched: Result<Api.Instance, Api.RemoteError>)
    ensures GetState(d, fetched).state in
      {Machine.Running, Machine.Stopped, Machine.Stopping, Machine.Starting, Machine.None, Machine.Error}
    ensures fetched.Err? ==> GetState(d, fetched).state != Machine.None
    ensures fetched.Ok? ==> GetState(d, fetched).state == StateOf(fetched.value.status)
  {
  }

  /** `Start`: boot with the default configuration. */
  function Start(d: Driver, reply: Option<Api.RemoteError>): (r: Reply)
    ensures r.calls == [Api.BootInstance(d.instanceID, DefaultConfigID)]
    ensures r.failure.Some? <==> reply.Some?
    ensures reply.Some? ==> r.failure == Some(Remote(reply.value))
  {
    Reply([Api.BootInstance(d.instanceID, DefaultConfigID)], if reply.Some? then Some(Remote(reply.value)) else None)
  }

  /** `Stop`: a graceful shutdown. */
  function Stop(d: Driver, reply: Option<Api.RemoteError>): (r: Reply)
    ensures r.calls == [Api.ShutdownInstance(d.instanceID)]
    ensures r.failure.Some? <==> reply.Some?
    ensures reply.Some? ==> r.failure == Some(Remote(reply.value))
  {
    Reply([Api.ShutdownInstance(d.instanceID)], if reply.Some? then Some(Remote(reply.value)) else None)
  }

  /** `Kill`: issues the same graceful shutdown as `Stop`. */
  function Kill(d: Driver, reply: Option<Api.RemoteError>): (r: Reply)
    ensures r.calls == [Api.ShutdownInstance(d.instanceID)]
    ensures r.failure.Some? <==> reply.Some?
    ensures reply.Some? ==> r.failure == Some(Remote(reply.value))
  {
    Reply([Api.ShutdownInstance(d.instanceID)], if reply.Some? then Some(Remote(reply.value)) else None)
  }

  /** There is no forceful path: killing and stopping are indistinguishable. */
  lemma KillIsStop(d: Driver, reply: Option<Api.RemoteError>)
    ensures Kill(d, reply) == Stop(d, reply)
  {
  }

  /** `Restart`: a single reboot with the default configuration, never a stop then a start. */
  function Restart(d: Driver, reply: Option<Api.RemoteError>): (r: Reply)
    ensures r.calls == [Api.RebootInstance(d.instanceID, DefaultConfigID)]
    ensures r.failure.Some? <==> reply.Some?
    ensures reply.Some? ==> r.failure == Some(Remote(reply.value))
  {
    Reply([Api.RebootInstance(d.instanceID, DefaultConfigID)], if reply.Some? then Some(Remote(reply.value)) else None)
  }

  /**
   * `Remove`: delete the instance; an API "not found" counts as already
   * removed, and every other error is returned unchanged.
   */
  function Remove(d: Driver, reply: Option<Api.RemoteError>): (r: Reply)
    ensures r.calls == [Api.DeleteInstance(d.instanceID)]
    ensures r.failure.None? <==> reply.None? || (reply.value.ApiError? && reply.value.code == NotFound)
    ensures r.failure.Some? ==> r.failure == Some(Remote(reply.value))
  {
    var calls := [Api.DeleteInstance(d.instanceID)];
    match reply
    case None => Reply(calls, None)
    case Some(e) =>
      if e.ApiError? && e.code == NotFound then Reply(calls, None)
      else Reply(calls, Some(Remote(e)))
  }

  /** Removing an instance that is already gone succeeds. */
  lemma RemoveAlreadyGone(d: Driver, message: string)
    ensures Remove(d, Some(Api.ApiError(404, message))).failure.None?
    ensures Remove(d, Some(Api.TransportError(message))).failure == Some(Remote(Api.TransportError(message)))
  {
  }
}

=== FILE: machine.dfy ===
/** What the host orchestration framework (libmachine) hands to and expects from a driver. */
module Machine {

  /** libmachine's canonical machine states. */
  datatype State = None | Running | Paused | Saved | Stopped | Stopping | Starting | Error | Timeout

  /** The option values a driver reads from the command line or environment. */
  datatype Flags = Flags(
    token: string,
    region: string,
    instanceType: string,
    authorizedUsers: string,
    rootPass: string,
    sshPort: int,
    sshUser: string,
    image: string,
    instanceLabel: string,
    swapSize: int,
    dockerPort: int,
    createPrivateIP: bool,
    userAgentPrefix: string,
    tags: string,
    stackScript: string,
    stackScriptData: string)
}

=== FILE: net.dfy ===
/**
 * IPv4 addresses and CIDR blocks, and the private-address test the driver
 * applies to every address a new instance reports (the three private blocks
 * of RFC 1918, section 3).
 */
module Net {
  import opened Text

  type Octet = x: int | 0 <= x < 256

  /** An IPv4 address as its four octets, most significant first. */
  datatype Address = IPv4(b0: Octet, b1: Octet, b2: Octet, b3: Octet)

  type PrefixLength = p: int | 0 <= p <= 32

  /** A CIDR block `base/prefixLength`. */
  datatype Block = Block(base: Address, prefixLength: PrefixLength)

  function Pow2(n: nat): (r: nat)
    ensures r > 0
  {
    if n == 0 then 1 else 2 * Pow2(n - 1)
  }

  /** How many of the prefix bits fall in octet `i` (Go's `CIDRMask`, byte by byte). */
  function MaskBits(prefixLength: PrefixLength, i: nat): (bits: nat)
    requires i < 4
    ensures bits <= 8
  {
    if prefixLength <= 8 * i then 0
    else if prefixLength >= 8 * (i + 1) then 8
    else prefixLength - 8 * i
  }

  /** Two octets agree on their `bits` leading bits: `x & mask == y & mask`. */
  predicate SameLeadingBits(x: Octet, y: Octet, bits: nat)
    requires bits <= 8
  {
    x / Pow2(8 - bits) == y / Pow2(8 - bits)
  }

  /** Go's `IPNet.Contains`: every octet agrees with the base under the mask. */
  predicate InBlock(ip: Address, block: Block)
    ensures ip == block.base ==> InBlock(ip, block)
  {
    var base, p := block.base, block.prefixLength;
    && SameLeadingBits(ip.b0, base.b0, MaskBits(p, 0))
    && SameLeadingBits(ip.b1, base.b1, MaskBits(p, 1))
    && SameLeadingBits(ip.b2, base.b2, MaskBits(p, 2))
    && SameLeadingBits(ip.b3, base.b3, MaskBits(p, 3))
  }

  const Private10: Block := Block(IPv4(10, 0, 0, 0), 8)
  const Private172: Block := Block(IPv4(172, 16, 0, 0), 12)
  const Private192: Block := Block(IPv4(192, 168, 0, 0), 16)

  /** `privateIP`: membership in one of the three RFC 1918 blocks. */
  predicate IsPrivate(ip: Address) {
    InBlock(ip, Private10) || InBlock(ip, Private172) || InBlock(ip, Private192)
  }

  lemma Pow2Values()
    ensures Pow2(0) == 1 && Pow2(4) == 16 && Pow2(8) == 256
  {
    assert Pow2(2) == 4;
    assert Pow2(4) == 16;
    assert Pow2(6) == 64;
  }

  /** Membership in a block whose prefix ends on an octet boundary or at bit 12. */
  lemma InBlockOctets(ip: Address, block: Block)
    requires block.prefixLength in {8, 12, 16}
    ensures InBlock(ip, block) <==>
      && ip.b0 == block.base.b0
      && (block.prefixLength == 12 ==> ip.b1 / 16 == block.base.b1 / 16)
      && (block.prefixLength == 16 ==> ip.b1 == block.base.b1)
  {
    Pow2Values();
  }

  /**
   * The private test in octet terms: 10.x.x.x, 172.16.x.x to 172.31.x.x,
   * or 192.168.x.x, and nothing else.
   */
  lemma IsPrivateIff(ip: Address)
    ensures IsPrivate(ip) <==>
      || ip.b0 == 10
      || (ip.b0 == 172 && 16 <= ip.b1 < 32)
      || (ip.b0 == 192 && ip.b1 == 168)
  {
    InBlockOctets(ip, Private10);
    InBlockOctets(ip, Private172);
    InBlockOctets(ip, Private192);
  }

  /** The addresses exercised by the driver's own unit tests. */
  lemma PrivateIPExamples()
    ensures IsPrivate(IPv4(172, 16, 0, 1))
    ensures IsPrivate(IPv4(192, 168, 0, 1))
    ensures IsPrivate(IPv4(10, 0, 0, 1))
    ensures !IsPrivate(IPv4(1, 1, 1, 1))
    ensures InBlock(IPv4(10, 0, 0, 1), Private10)
    ensures !InBlock(IPv4(10, 0, 0, 1), Block(IPv4(254, 0, 0, 0), 8))
  {
    IsPrivateIff(IPv4(172, 16, 0, 1));
    IsPrivateIff(IPv4(192, 168, 0, 1));
    IsPrivateIff(IPv4(10, 0, 0, 1));
    IsPrivateIff(IPv4(1, 1, 1, 1));
    InBlockOctets(IPv4(10, 0, 0, 1), Private10);
    InBlockOctets(IPv4(10, 0, 0, 1), Block(IPv4(254, 0, 0, 0), 8));
  }

  /** `net.IP.String` for an IPv4 address: dotted decimal. */
  function Format(ip: Address): (s: string)
    ensures |s| >= 7
  {
    FormatNat(ip.b0) + "." + FormatNat(ip.b1) + "." + FormatNat(ip.b2) + "." + FormatNat(ip.b3)
  }

  /** The dotted form reads back: its four dot-separated fields are the octets. */
  lemma FormatReadsBack(ip: Address)
    ensures var fields := Split(Format(ip), '.');
      && |fields| == 4
      && AllDigits(fields[0]) && DecimalValue(fields[0]) == ip.b0
      && AllDigits(fields[1]) && DecimalValue(fields[1]) == ip.b1
      && AllDigits(fields[2]) && DecimalValue(fields[2]) == ip.b2
      && AllDigits(fields[3]) && DecimalValue(fields[3]) == ip.b3
  {
    var f0, f1, f2, f3 := FormatNat(ip.b0), FormatNat(ip.b1), FormatNat(ip.b2), FormatNat(ip.b3);
    forall f: string | AllDigits(f) ensures '.' !in f {
    }
    assert Format(ip) == f0 + ['.'] + (f1 + ['.'] + (f2 + ['.'] + f3));
    SplitAtSeparator(f0, '.', f1 + ['.'] + (f2 + ['.'] + f3));
    SplitAtSeparator(f1, '.', f2 + ['.'] + f3);
    SplitAtSeparator(f2, '.', f3);
    assert Split(f3, '.') == [f3] by { JoinSplit(f3, '.'); SplitCount(f3, '.'); NoOccurrenceCount(f3, '.'); }
    DecimalValueOfFormatNat(ip.b0);
    DecimalValueOfFormatNat(ip.b1);
    DecimalValueOfFormatNat(ip.b2);
    DecimalValueOfFormatNat(ip.b3);
  }

  lemma {:induction false} NoOccurrenceCount(s: string, c: char)
    requires c !in s
    ensures Count(s, c) == 0
    decreases |s|
  {
    if |s| > 0 {
      NoOccurrenceCount(s[1..], c);
    }
  }
}

=== FILE: precreate.dfy ===
/**
 * `PreCreateCheck`: making sure a root password exists, then resolving the
 * StackScript reference against the remote catalog, by owner and label or
 * by id.
 */
module PreCreate {
  import opened Common
  import opened Text
  import Api
  import opened Linode
  import Config
  import Machine

  /** The position of the first listed script published by `owner`, if any. */
  function FirstByOwner(scripts: seq<Api.StackScript>, owner: string): (r: Option<nat>)
    ensures r.Some? ==>
      && r.value < |scripts|
      && scripts[r.value].username == owner
      && forall j :: 0 <= j < r.value ==> scripts[j].username != owner
    ensures r.None? ==> forall j :: 0 <= j < |scripts| ==> scripts[j].username != owner
    decreases |scripts|
  {
    if |scripts| == 0 then None
    else if scripts[0].username == owner then Some(0)
    else
      match FirstByOwner(scripts[1..], owner)
      case None => None
      case Some(i) => Some(i + 1)
  }

  /**
   * `PreCreateCheck`. `generated` is the outcome of generating a random root
   * password (None when randomness failed); `listed` and `fetched` are the
   * catalog's replies to a list and to a fetch by id.
   */
  function PreCreateCheck(
    d: Driver,
    generated: Option<string>,
    listed: Result<seq<Api.StackScript>, Api.RemoteError>,
    fetched: Result<Api.StackScript, Api.RemoteError>): (r: Step)
    ensures d.rootPassword != "" ==> r.driver.rootPassword == d.rootPassword
    ensures d.rootPassword == "" && generated.Some? ==> r.driver.rootPassword == generated.value
    ensures r.failure == Some(PasswordGenerationFailed) <==> d.rootPassword == "" && generated.None?
    ensures (d.rootPassword != "" || generated.Some?) && d.stackScriptUser != "" && listed.Err? ==>
      r.failure == Some(Remote(listed.error))
    ensures r.driver == d.(rootPassword := r.driver.rootPassword, stackScriptID := r.driver.stackScriptID,
                           stackScriptUser := r.driver.stackScriptUser, stackScriptLabel := r.driver.stackScriptLabel)
  {
    if d.rootPassword == "" && generated.None? then Step(d, [], Some(PasswordGenerationFailed))
    else
      var d1 := if d.rootPassword == "" then d.(rootPassword := generated.value) else d;
      if d1.stackScriptUser != "" then
        var calls := [Api.ListStackScripts(Api.StackScriptFilter(d1.stackScriptUser, d1.stackScriptLabel))];
        match listed
        case Err(e) => Step(d1, calls, Some(Remote(e)))
        case Ok(scripts) =>
          match FirstByOwner(scripts, d1.stackScriptUser)
          case None => Step(d1, calls, Some(StackScriptNotFound(d1.stackScriptUser, d1.stackScriptLabel)))
          case Some(i) =>
            var s := scripts[i];
            Step(d1.(stackScriptUser := s.username, stackScriptLabel := s.scriptLabel, stackScriptID := s.id), calls, None)
      else if d1.stackScriptID != 0 then
        var calls := [Api.GetStackScript(d1.stackScriptID)];
        match fetched
        case Err(e) => Step(d1, calls, Some(StackScriptUnusable(d1.stackScriptID, e)))
        case Ok(s) => Step(d1.(stackScriptUser := s.username, stackScriptLabel := s.scriptLabel), calls, None)
      else Step(d1, [], None)
  }

  /**
   * Resolution by owner: one filtered list call; success exactly when some
   * listed script belongs to the owner, and then the first such script's id,
   * owner and label are adopted.
   */
  lemma ResolveByOwner(
    d: Driver, generated: Option<string>, scripts: seq<Api.StackScript>,
    fetched: Result<Api.StackScript, Api.RemoteError>)
    requires d.rootPassword != "" || generated.Some?
    requires d.stackScriptUser != ""
    ensures var r := PreCreateCheck(d, generated, Ok(scripts), fetched);
      && r.calls == [Api.ListStackScripts(Api.StackScriptFilter(d.stackScriptUser, d.stackScriptLabel))]
      && (r.failure.None? <==> exists j :: 0 <= j < |scripts| && scripts[j].username == d.stackScriptUser)
      && (r.failure.Some? ==> r.failure.value == StackScriptNotFound(d.stackScriptUser, d.stackScriptLabel))
      && (r.failure.None? ==>
            exists i :: 0 <= i < |scripts|
              && scripts[i].username == d.stackScriptUser
              && (forall j :: 0 <= j < i ==> scripts[j].username != d.stackScriptUser)
              && r.driver.stackScriptID == scripts[i].id
              && r.driver.stackScriptUser == d.stackScriptUser
              && r.driver.stackScriptLabel == scripts[i].scriptLabel)
  {
    var r := PreCreateCheck(d, generated, Ok(scripts), fetched);
    match FirstByOwner(scripts, d.stackScriptUser)
    case None =>
    case Some(i) =>
      assert r.driver.stackScriptID == scripts[i].id;
  }

  /**
   * Resolution by id: one fetch by that id and no catalog listing; on
   * success the owner and label are adopted and the id is kept; a failed
   * fetch is reported with the id.
   */
  lemma ResolveById(
    d: Driver, generated: Option<string>, listed: Result<seq<Api.StackScript>, Api.RemoteError>,
    fetched: Result<Api.StackScript, Api.RemoteError>)
    requires d.rootPassword != "" || generated.Some?
    requires d.stackScriptUser == "" && d.stackScriptID != 0
    ensures var r := PreCreateCheck(d, generated, listed, fetched);
      && r.calls == [Api.GetStackScript(d.stackScriptID)]
      && r.driver.stackScriptID == d.stackScriptID
      && (fetched.Ok? ==>
            (r.failure.None?
             && r.driver.stackScriptUser == fetched.value.username
             && r.driver.stackScriptLabel == fetched.value.scriptLabel))
      && (fetched.Err? ==> r.failure == Some(StackScriptUnusable(d.stackScriptID, fetched.error)))
  {
  }

  /** Without a StackScript reference the catalog is never consulted. */
  lemma NoReferenceNoCalls(
    d: Driver, generated: Option<string>, listed: Result<seq<Api.StackScript>, Api.RemoteError>,
    fetched: Result<Api.StackScript, Api.RemoteError>)
    requires d.stackScriptUser == "" && d.stackScriptID == 0
    ensures var r := PreCreateCheck(d, generated, listed, fetched);
      && r.calls == []
      && (d.rootPassword != "" || generated.Some? ==> r.failure.None?)
      && r.driver.stackScriptUser == "" && r.driver.stackScriptID == 0
  {
  }

  /** After a successful check the root password is set, whether given or generated. */
  lemma PasswordPresent(
    d: Driver, generated: Option<string>, listed: Result<seq<Api.StackScript>, Api.RemoteError>,
    fetched: Result<Api.StackScript, Api.RemoteError>)
    requires generated.Some? ==> generated.value != ""
    ensures var r := PreCreateCheck(d, generated, listed, fetched);
      r.failure.None? ==> r.driver.rootPassword != ""
  {
  }

  /** The reference "123" is the id 123 and is resolved by one fetch, without a listing. */
  lemma NumericReferenceExample(decode: Config.JsonDecoder, listed: Result<seq<Api.StackScript>, Api.RemoteError>)
    ensures var f := Config.TokenOnlyFlags().(stackScript := "123");
      var c := Config.SetConfigFromFlags(NewDriver("host", ""), f, decode);
      var r := PreCreateCheck(c.driver, None, listed, Ok(Api.StackScript(123, "alice", "setup")));
      && c.failure.None? && c.driver.stackScriptID == 123
      && r.failure.None? && r.calls == [Api.GetStackScript(123)]
      && r.driver.stackScriptUser == "alice" && r.driver.stackScriptLabel == "setup"
  {
    var s := "123";
    assert s[0] == '1' && s[1] == '2' && s[2] == '3';
    assert AllDigits(s);
    assert s[..2] == "12" && s[..2][..1] == "1" && s[..2][..1][..0] == "";
    assert DecimalValue("1") == 1;
    assert DecimalValue("12") == 12;
    assert DecimalValue(s) == 123;
  }

  /**
   * The reference "0" is read as id 0, which also means "no StackScript":
   * the option is accepted and then silently ignored, with no catalog call.
   */
  lemma ZeroReferenceIgnored(
    decode: Config.JsonDecoder, listed: Result<seq<Api.StackScript>, Api.RemoteError>,
    fetched: Result<Api.StackScript, Api.RemoteError>)
    ensures var f := Config.TokenOnlyFlags().(stackScript := "0");
      var c := Config.SetConfigFromFlags(NewDriver("host", ""), f, decode);
      var r := PreCreateCheck(c.driver, None, listed, fetched);
      && c.failure.None? && c.driver.stackScriptID == 0 && c.driver.stackScriptUser == ""
      && r.failure.None? && r.calls == [] && r.driver.stackScriptID == 0
  {
    assert AllDigits("0") && DecimalValue("0") == 0;
    assert Atoi("0") == Some(0);
    var f := Config.TokenOnlyFlags().(stackScript := "0");
    var d1 := Config.CopyFlags(NewDriver("host", ""), f);
    var c := Config.SetConfigFromFlags(NewDriver("host", ""), f, decode);
    assert c == Step(Config.DefaultLabel(d1.(stackScriptID := 0)), [], None);
    assert c.driver.rootPassword != "" && c.driver.stackScriptUser == "" && c.driver.stackScriptID == 0;
  }

  /** The reference "alice/setup" against a catalog holding only bob's "setup" is not found. */
  lemma OwnerMismatchExample(fetched: Result<Api.StackScript, Api.RemoteError>)
    ensures var d := NewDriver("host", "").(rootPassword := "pw", stackScriptUser := "alice", stackScriptLabel := "setup");
      var r := PreCreateCheck(d, None, Ok([Api.StackScript(7, "bob", "setup")]), fetched);
      r.failure == Some(StackScriptNotFound("alice", "setup"))
  {
  }
}

=== FILE: provision.dfy ===
/**
 * `Create`: building the instance request, submitting it, picking the public
 * and private addresses out of the reply, enabling the network helper before
 * the first boot when a private address was requested, and waiting for the
 * instance to run. Remote calls are recorded in order; their replies are
 * inputs.
 */
module Provision {
  import opened Common
  import opened Text
  import Net
  import Api
  import opened Linode

  /** Seconds the driver waits for the new instance to report "running". */
  const BootTimeoutSeconds: int := 180

  /** The remote replies `Create` meets, in the order it asks for them. */
  datatype CreateReplies = CreateReplies(
    created: Result<Api.Instance, Api.RemoteError>,
    configs: Result<seq<Api.InstanceConfig>, Api.RemoteError>,
    updated: Option<Api.RemoteError>,
    booted: Option<Api.RemoteError>,
    running: Option<Api.RemoteError>)

  /** A comma list option as a request field: omitted when empty, else every comma-separated piece. */
  function CommaList(s: string): (parts: seq<string>)
    ensures s == "" ==> parts == []
    ensures s != "" ==> |parts| > 0 && Join(parts, ',') == s
    ensures forall i :: 0 <= i < |parts| ==> ',' !in parts[i]
  {
    if s == "" then [] else JoinSplit(s, ','); Split(s, ',')
  }

  /**
   * The create request. An instance that needs a private address is created
   * powered off, so that its network helper can be set before the first boot;
   * every other instance boots at once.
   */
  function CreateRequest(d: Driver, publicKey: string): (o: Api.CreateOptions)
    ensures o.booted == !d.createPrivateIP && o.privateIP == d.createPrivateIP
    ensures o.authorizedKeys == [TrimSpace(publicKey)]
    ensures d.authorizedUsers == "" <==> o.authorizedUsers == []
    ensures d.authorizedUsers != "" ==> Join(o.authorizedUsers, ',') == d.authorizedUsers
    ensures forall i :: 0 <= i < |o.authorizedUsers| ==> ',' !in o.authorizedUsers[i]
    ensures d.tags == "" <==> o.tags == []
    ensures d.tags != "" ==> Join(o.tags, ',') == d.tags
    ensures forall i :: 0 <= i < |o.tags| ==> ',' !in o.tags[i]
    ensures d.stackScriptID != 0 ==> o.stackScriptID == d.stackScriptID && o.stackScriptData == d.stackScriptData
    ensures d.stackScriptID == 0 ==> o.stackScriptID == 0 && o.stackScriptData == map[]
    ensures o.region == d.region && o.instanceType == d.instanceType && o.image == d.instanceImage
    ensures o.instanceLabel == d.instanceLabel && o.rootPass == d.rootPassword && o.swapSize == d.swapSize
  {
    Api.CreateOptions(
      region := d.region,
      instanceType := d.instanceType,
      instanceLabel := d.instanceLabel,
      rootPass := d.rootPassword,
      authorizedKeys := [TrimSpace(publicKey)],
      authorizedUsers := CommaList(d.authorizedUsers),
      image := d.instanceImage,
      swapSize := d.swapSize,
      privateIP := d.createPrivateIP,
      booted := !d.createPrivateIP,
      tags := CommaList(d.tags),
      stackScriptID := if d.stackScriptID != 0 then d.stackScriptID else 0,
      stackScriptData := if d.stackScriptID != 0 then d.stackScriptData else map[])
  }

  /**
   * The address loop: each public address overwrites the public field, and,
   * when a private address is wanted, each private one overwrites the
   * private field. Returns the final (public, private) pair.
   */
  function Classify(addrs: seq<Net.Address>, wantPrivate: bool, ip: string, priv: string): (r: (string, string))
    ensures !wantPrivate ==> r.1 == priv
    decreases |addrs|
  {
    if |addrs| == 0 then (ip, priv)
    else if !Net.IsPrivate(addrs[0]) then Classify(addrs[1..], wantPrivate, Net.Format(addrs[0]), priv)
    else if wantPrivate then Classify(addrs[1..], wantPrivate, ip, Net.Format(addrs[0]))
    else Classify(addrs[1..], wantPrivate, ip, priv)
  }

  /** `addrs[i]` is the last address of its kind (private or not) in the list. */
  predicate LastOfKind(addrs: seq<Net.Address>, i: int, private: bool) {
    && 0 <= i < |addrs|
    && Net.IsPrivate(addrs[i]) == private
    && forall j :: i < j < |addrs| ==> Net.IsPrivate(addrs[j]) != private
  }

  predicate NoneOfKind(addrs: seq<Net.Address>, private: bool) {
    forall j :: 0 <= j < |addrs| ==> Net.IsPrivate(addrs[j]) != private
  }

  /** Dropping the first address keeps "last of its kind" positions, shifted by one. */
  lemma LastOfKindTail(addrs: seq<Net.Address>, i: int, private: bool)
    requires LastOfKind(addrs, i, private)
    ensures i == 0 ==> NoneOfKind(addrs[1..], private)
    ensures i > 0 ==> LastOfKind(addrs[1..], i - 1, private)
  {
    forall j | 0 <= j < |addrs| - 1 ensures addrs[1..][j] == addrs[j + 1] {
    }
  }

  /**
   * The loop keeps the LAST public address in the list, or the earlier value
   * when the list has none.
   */
  lemma {:induction false} ClassifyKeepsLastPublic(addrs: seq<Net.Address>, wantPrivate: bool, ip: string, priv: string)
    ensures var r := Classify(addrs, wantPrivate, ip, priv);
      && (NoneOfKind(addrs, false) ==> r.0 == ip)
      && (forall i :: LastOfKind(addrs, i, false) ==> r.0 == Net.Format(addrs[i]))
    decreases |addrs|
  {
    if |addrs| > 0 {
      var a, rest := addrs[0], addrs[1..];
      var ip' := if !Net.IsPrivate(a) then Net.Format(a) else ip;
      var priv' := if Net.IsPrivate(a) && wantPrivate then Net.Format(a) else priv;
      ClassifyKeepsLastPublic(rest, wantPrivate, ip', priv');
      assert Classify(addrs, wantPrivate, ip, priv) == Classify(rest, wantPrivate, ip', priv');
      forall i | LastOfKind(addrs, i, false)
        ensures Classify(addrs, wantPrivate, ip, priv).0 == Net.Format(addrs[i])
      {
        LastOfKindTail(addrs, i, false);
        if i > 0 {
          assert rest[i - 1] == addrs[i];
        }
      }
      if NoneOfKind(addrs, false) {
        assert NoneOfKind(rest, false) by {
          forall j | 0 <= j < |rest| ensures Net.IsPrivate(rest[j]) {
            assert rest[j] == addrs[j + 1];
          }
        }
      }
    }
  }

  /**
   * When a private address is wanted the loop keeps the LAST private address
   * in the list, or the earlier value when the list has none; when none is
   * wanted the private field is never touched.
   */
  lemma {:induction false} ClassifyKeepsLastPrivate(addrs: seq<Net.Address>, wantPrivate: bool, ip: string, priv: string)
    ensures var r := Classify(addrs, wantPrivate, ip, priv);
      && (!wantPrivate || NoneOfKind(addrs, true) ==> r.1 == priv)
      && (wantPrivate ==> forall i :: LastOfKind(addrs, i, true) ==> r.1 == Net.Format(addrs[i]))
    decreases |addrs|
  {
    if |addrs| > 0 {
      var a, rest := addrs[0], addrs[1..];
      var ip' := if !Net.IsPrivate(a) then Net.Format(a) else ip;
      var priv' := if Net.IsPrivate(a) && wantPrivate then Net.Format(a) else priv;
      ClassifyKeepsLastPrivate(rest, wantPrivate, ip', priv');
      assert Classify(addrs, wantPrivate, ip, priv) == Classify(rest, wantPrivate, ip', priv');
      forall i | wantPrivate && LastOfKind(addrs, i, true)
        ensures Classify(addrs, wantPrivate, ip, priv).1 == Net.Format(addrs[i])
      {
        LastOfKindTail(addrs, i, true);
        if i > 0 {
          assert rest[i - 1] == addrs[i];
        }
      }
      if NoneOfKind(addrs, true) {
        assert NoneOfKind(rest, true) by {
          forall j | 0 <= j < |rest| ensures !Net.IsPrivate(rest[j]) {
            assert rest[j] == addrs[j + 1];
          }
        }
      }
    }
  }

  /** When some address has a kind, there is a last one of that kind. */
  lemma {:induction false} LastOfKindExists(addrs: seq<Net.Address>, private: bool)
    requires !NoneOfKind(addrs, private)
    ensures exists i :: LastOfKind(addrs, i, private)
    decreases |addrs|
  {
    var rest := addrs[1..];
    if NoneOfKind(rest, private) {
      assert LastOfKind(addrs, 0, private);
    } else {
      LastOfKindExists(rest, private);
      var i :| LastOfKind(rest, i, private);
      assert LastOfKind(addrs, i + 1, private);
    }
  }

  /**
   * The private-address sequence: list the boot configurations, set the
   * network helper on the first one, and only then boot with that
   * configuration. Returns the calls made and the failure, if any.
   */
  function EnableNetworkHelper(linodeID: int, replies: CreateReplies): (r: (seq<Api.Call>, Option<Failure>))
    ensures |r.0| > 0 && r.0[0] == Api.ListInstanceConfigs(linodeID)
    ensures BootFollowsHelper(r.0)
    ensures r.1.None? ==>
      && replies.configs.Ok? && |replies.configs.value| > 0
      && replies.updated.None? && replies.booted.None?
      && var c := replies.configs.value[0];
         r.0[1..] == [Api.UpdateInstanceConfig(linodeID, c.id, c.(networkHelper := true)), Api.BootInstance(linodeID, c.id)]
    ensures replies.updated.Some? ==> forall j :: 0 <= j < |r.0| ==> !r.0[j].BootInstance?
    ensures replies.configs.Err? ==> r == ([Api.ListInstanceConfigs(linodeID)], Some(Remote(replies.configs.error)))
    ensures replies.configs.Ok? && |replies.configs.value| == 0 ==>
      r == ([Api.ListInstanceConfigs(linodeID)], Some(ConfigNotFound(linodeID)))
    ensures replies.configs.Ok? && |replies.configs.value| > 0 ==>
      var c := replies.configs.value[0];
      var update := Api.UpdateInstanceConfig(linodeID, c.id, c.(networkHelper := true));
      && (replies.updated.Some? ==>
            r == ([Api.ListInstanceConfigs(linodeID), update], Some(Remote(replies.updated.value))))
      && (replies.updated.None? && replies.booted.Some? ==>
            r == ([Api.ListInstanceConfigs(linodeID), update, Api.BootInstance(linodeID, c.id)],
                  Some(Remote(replies.booted.value))))
  {
    var list := [Api.ListInstanceConfigs(linodeID)];
    match replies.configs
    case Err(e) => (list, Some(Remote(e)))
    case Ok(configs) =>
      if |configs| == 0 then (list, Some(ConfigNotFound(linodeID)))
      else
        var c := configs[0];
        var update := Api.UpdateInstanceConfig(linodeID, c.id, c.(networkHelper := true));
        if replies.updated.Some? then ([Api.ListInstanceConfigs(linodeID), update], Some(Remote(replies.updated.value)))
        else
          var boot := [Api.ListInstanceConfigs(linodeID), update, Api.BootInstance(linodeID, c.id)];
          if replies.booted.Some? then (boot, Some(Remote(replies.booted.value))) else (boot, None)
  }

  /**
   * Every boot call comes straight after an update of the same configuration
   * of the same instance that turns the network helper on.
   */
  predicate BootFollowsHelper(calls: seq<Api.Call>) {
    forall j :: 0 <= j < |calls| && calls[j].BootInstance? ==>
      && j > 0
      && calls[j - 1].UpdateInstanceConfig?
      && calls[j - 1].linodeID == calls[j].linodeID
      && calls[j - 1].configID == calls[j].configID
      && calls[j - 1].update.networkHelper
  }

  /** The record once the server's reply is in: identity, region and the addresses picked from it. */
  function Recorded(d: Driver, inst: Api.Instance): (r: Driver)
    ensures r.instanceID == inst.id && r.instanceLabel == inst.linodeLabel && r.region == inst.region
    ensures !d.createPrivateIP ==> r.privateIPAddress == d.privateIPAddress
    ensures r == d.(instanceID := inst.id, instanceLabel := inst.linodeLabel, region := inst.region,
                    ipAddress := r.ipAddress, privateIPAddress := r.privateIPAddress)
    ensures r.machineName == d.machineName && r.createPrivateIP == d.createPrivateIP
  {
    var found := Classify(inst.ipv4, d.createPrivateIP, d.ipAddress, d.privateIPAddress);
    d.(instanceID := inst.id, instanceLabel := inst.linodeLabel, region := inst.region,
       ipAddress := found.0, privateIPAddress := found.1)
  }

  /** The configuration list, the helper update and the boot all went through. */
  predicate HelperSucceeds(replies: CreateReplies) {
    && replies.configs.Ok? && |replies.configs.value| > 0
    && replies.updated.None? && replies.booted.None?
  }

  /**
   * Creation gets as far as the wait for "running": a public address was
   * found and, when a private address is wanted, one was found too and the
   * network-helper sequence succeeded.
   */
  predicate ReachesWait(d: Driver, inst: Api.Instance, replies: CreateReplies) {
    var d1 := Recorded(d, inst);
    && d1.ipAddress != ""
    && (d.createPrivateIP ==> d1.privateIPAddress != "" && HelperSucceeds(replies))
  }

  /**
   * Everything `Create` does once the instance exists: check the addresses,
   * run the private-address sequence when requested, then wait for the
   * instance to run.
   */
  function AfterSubmit(d: Driver, inst: Api.Instance, replies: CreateReplies): (r: Step)
    ensures r.driver == Recorded(d, inst)
    ensures r.failure == Some(PublicAddressNotFound) <==> r.driver.ipAddress == ""
    ensures r.failure == Some(PrivateAddressNotFound) <==>
      r.driver.ipAddress != "" && d.createPrivateIP && r.driver.privateIPAddress == ""
    ensures BootFollowsHelper(r.calls)
    ensures |r.calls| > 0 ==> r.calls[0].ListInstanceConfigs? || r.calls[0].WaitForInstanceStatus?
    ensures forall j :: 0 <= j < |r.calls| ==> !r.calls[j].CreateInstance? && !r.calls[j].DeleteInstance?
    ensures r.failure == Some(PublicAddressNotFound) || r.failure == Some(PrivateAddressNotFound) ==> r.calls == []
    ensures !ReachesWait(d, inst, replies) ==> forall j :: 0 <= j < |r.calls| ==> !r.calls[j].WaitForInstanceStatus?
    ensures !ReachesWait(d, inst, replies) && r.driver.ipAddress != "" && d.createPrivateIP && r.driver.privateIPAddress != "" ==>
      (r.calls, r.failure) == EnableNetworkHelper(inst.id, replies)
    ensures !d.createPrivateIP ==> forall j :: 0 <= j < |r.calls| ==> !r.calls[j].TouchesConfigs()
    ensures replies.updated.Some? ==> forall j :: 0 <= j < |r.calls| ==> !r.calls[j].BootInstance?
    ensures r.failure.None? ==>
      && replies.running.None?
      && (d.createPrivateIP ==> replies.updated.None? && replies.booted.None?)
      && r.driver.ipAddress != ""
      && (d.createPrivateIP ==> r.driver.privateIPAddress != "")
      && |r.calls| > 0
      && r.calls[|r.calls| - 1] == Api.WaitForInstanceStatus(inst.id, Api.Running, BootTimeoutSeconds)
    ensures r.failure.None? <==> ReachesWait(d, inst, replies) && replies.running.None?
    ensures ReachesWait(d, inst, replies) ==>
      && |r.calls| > 0
      && r.calls[|r.calls| - 1] == Api.WaitForInstanceStatus(inst.id, Api.Running, BootTimeoutSeconds)
      && (replies.running.Some? ==> r.failure == Some(WaitFailed(replies.running.value)))
  {
    var d1 := Recorded(d, inst);
    if d1.ipAddress == "" then Step(d1, [], Some(PublicAddressNotFound))
    else if d1.createPrivateIP && d1.privateIPAddress == "" then Step(d1, [], Some(PrivateAddressNotFound))
    else
      var helper := if d1.createPrivateIP then EnableNetworkHelper(inst.id, replies) else ([], None);
      if helper.1.Some? then Step(d1, helper.0, helper.1)
      else
        var wait := Api.WaitForInstanceStatus(d1.instanceID, Api.Running, BootTimeoutSeconds);
        assert BootFollowsHelper(helper.0 + [wait]) by {
          BootFollowsHelperAppend(helper.0, [wait]);
        }
        match replies.running
        case Some(e) => Step(d1, helper.0 + [wait], Some(WaitFailed(e)))
        case None => Step(d1, helper.0 + [wait], None)
  }

  /** Appending a trace that does not start with a boot keeps boots behind their updates. */
  lemma BootFollowsHelperAppend(a: seq<Api.Call>, b: seq<Api.Call>)
    requires BootFollowsHelper(a) && BootFollowsHelper(b)
    requires |b| > 0 ==> !b[0].BootInstance?
    ensures BootFollowsHelper(a + b)
  {
    forall j | 0 <= j < |a + b| && (a + b)[j].BootInstance?
      ensures j > 0 && (a + b)[j - 1].UpdateInstanceConfig?
    {
      if j >= |a| {
        assert (a + b)[j] == b[j - |a|];
        assert (a + b)[j - 1] == b[j - |a| - 1];
      }
    }
  }

  /**
   * `Create`. `publicKey` is the generated SSH public key (None when the key
   * could not be produced). The returned record keeps whatever was learned
   * before a failure, such as the new instance's id.
   */
  function Create(d: Driver, publicKey: Option<string>, replies: CreateReplies): (r: Step)
    ensures publicKey.None? ==> r == Step(d, [], Some(KeyMaterialUnavailable))
    ensures publicKey.Some? && replies.created.Err? ==>
      r == Step(d, [Api.CreateInstance(CreateRequest(d, publicKey.value))], Some(Remote(replies.created.error)))
    ensures publicKey.Some? && replies.created.Ok? ==> r.driver == Recorded(d, replies.created.value)
  {
    if publicKey.None? then Step(d, [], Some(KeyMaterialUnavailable))
    else
      var submit := [Api.CreateInstance(CreateRequest(d, publicKey.value))];
      match replies.created
      case Err(e) => Step(d, submit, Some(Remote(e)))
      case Ok(inst) =>
        var rest := AfterSubmit(d, inst, replies);
        Step(rest.driver, submit + rest.calls, rest.failure)
  }

  /**
   * Without key material nothing is sent; otherwise the first call creates
   * the instance from the request built out of the record, powered on
   * exactly when no private address is requested, and no later call
   * creates another instance.
   */
  lemma CreateSendsRequestOnce(d: Driver, publicKey: Option<string>, replies: CreateReplies)
    ensures var r := Create(d, publicKey, replies);
      && (publicKey.None? ==> r == Step(d, [], Some(KeyMaterialUnavailable)))
      && (publicKey.Some? ==>
            && |r.calls| > 0
            && r.calls[0] == Api.CreateInstance(CreateRequest(d, publicKey.value))
            && r.calls[0].options.booted == !d.createPrivateIP
            && forall j :: 0 < j < |r.calls| ==> !r.calls[j].CreateInstance?)
  {
  }

  /**
   * After a successful submission, the record takes the server's id, label
   * and region; its public address is the last non-private address reported
   * (unchanged if there is none); its private address changes only when one
   * was requested, and then to the last private address reported.
   */
  lemma CreateRecordsAddresses(d: Driver, key: string, replies: CreateReplies)
    requires replies.created.Ok?
    ensures var r := Create(d, Some(key), replies);
      var inst := replies.created.value;
      && r.driver.instanceID == inst.id
      && r.driver.instanceLabel == inst.linodeLabel
      && r.driver.region == inst.region
      && (NoneOfKind(inst.ipv4, false) ==> r.driver.ipAddress == d.ipAddress)
      && (forall i :: LastOfKind(inst.ipv4, i, false) ==> r.driver.ipAddress == Net.Format(inst.ipv4[i]))
      && (!d.createPrivateIP || NoneOfKind(inst.ipv4, true) ==> r.driver.privateIPAddress == d.privateIPAddress)
      && (d.createPrivateIP ==>
            forall i :: LastOfKind(inst.ipv4, i, true) ==> r.driver.privateIPAddress == Net.Format(inst.ipv4[i]))
  {
    ClassifyKeepsLastPublic(replies.created.value.ipv4, d.createPrivateIP, d.ipAddress, d.privateIPAddress);
    ClassifyKeepsLastPrivate(replies.created.value.ipv4, d.createPrivateIP, d.ipAddress, d.privateIPAddress);
  }

  /**
   * On a fresh record, creation fails with a missing public address when the
   * reply holds none, and with a missing private address when one was
   * requested and the reply holds none; in both cases the instance id is
   * already recorded, and the creation call is the only call made: nothing
   * waits for, configures or deletes the new instance.
   */
  lemma CreateAddressFailures(d: Driver, key: string, replies: CreateReplies)
    requires replies.created.Ok?
    requires d.ipAddress == "" && d.privateIPAddress == ""
    ensures var r := Create(d, Some(key), replies);
      var addrs := replies.created.value.ipv4;
      && r.driver.instanceID == replies.created.value.id
      && (r.failure == Some(PublicAddressNotFound) || r.failure == Some(PrivateAddressNotFound) ==>
            r.calls == [Api.CreateInstance(CreateRequest(d, key))])
      && (r.failure == Some(PublicAddressNotFound) <==> NoneOfKind(addrs, false))
      && (r.failure == Some(PrivateAddressNotFound) <==>
            !NoneOfKind(addrs, false) && d.createPrivateIP && NoneOfKind(addrs, true))
  {
    var addrs := replies.created.value.ipv4;
    var r := AfterSubmit(d, replies.created.value, replies);
    assert r.driver.ipAddress == Classify(addrs, d.createPrivateIP, d.ipAddress, d.privateIPAddress).0;
    assert r.driver.privateIPAddress == Classify(addrs, d.createPrivateIP, d.ipAddress, d.privateIPAddress).1;
    ClassifyKeepsLastPublic(addrs, d.createPrivateIP, d.ipAddress, d.privateIPAddress);
    ClassifyKeepsLastPrivate(addrs, d.createPrivateIP, d.ipAddress, d.privateIPAddress);
    if !NoneOfKind(addrs, false) {
      LastOfKindExists(addrs, false);
    }
    if !NoneOfKind(addrs, true) && d.createPrivateIP {
      LastOfKindExists(addrs, true);
    }
  }

  /**
   * Ordering, for every run: each boot call directly follows the update that
   * turns the network helper on for that configuration, no boot is sent
   * once that update has failed, and an instance without a private address
   * never has its configurations touched.
   */
  lemma CreateOrdering(d: Driver, publicKey: Option<string>, replies: CreateReplies)
    ensures var r := Create(d, publicKey, replies);
      && BootFollowsHelper(r.calls)
      && (replies.updated.Some? ==> forall j :: 0 <= j < |r.calls| ==> !r.calls[j].BootInstance?)
      && (!d.createPrivateIP ==> forall j :: 0 <= j < |r.calls| ==> !r.calls[j].TouchesConfigs())
  {
    if publicKey.Some? && replies.created.Ok? {
      SubmittedOrdering(d, publicKey.value, replies);
    } else {
      var r := Create(d, publicKey, replies);
      assert |r.calls| <= 1 && (|r.calls| == 1 ==> r.calls[0].CreateInstance?);
    }
  }

  /** `CreateOrdering` once the instance exists: the creation call, then the trace `AfterSubmit` gives. */
  lemma SubmittedOrdering(d: Driver, key: string, replies: CreateReplies)
    requires replies.created.Ok?
    ensures var r := Create(d, Some(key), replies);
      && BootFollowsHelper(r.calls)
      && (replies.updated.Some? ==> forall j :: 0 <= j < |r.calls| ==> !r.calls[j].BootInstance?)
      && (!d.createPrivateIP ==> forall j :: 0 <= j < |r.calls| ==> !r.calls[j].TouchesConfigs())
  {
    var rest := AfterSubmit(d, replies.created.value, replies);
    var submit := Api.CreateInstance(CreateRequest(d, key));
    BootFollowsHelperAppend([submit], rest.calls);
    assert Create(d, Some(key), replies).calls == [submit] + rest.calls;
    PrependKeepsAbsent(submit, rest.calls);
  }

  /**
   * Putting the creation call in front of a trace adds no boot and no
   * configuration call: every later call is a call of the trace.
   */
  lemma PrependKeepsAbsent(c: Api.Call, calls: seq<Api.Call>)
    requires c.CreateInstance?
    ensures (forall j :: 0 <= j < |calls| ==> !calls[j].BootInstance?) ==>
      forall j :: 0 <= j < |[c] + calls| ==> !([c] + calls)[j].BootInstance?
    ensures (forall j :: 0 <= j < |calls| ==> !calls[j].TouchesConfigs()) ==>
      forall j :: 0 <= j < |[c] + calls| ==> !([c] + calls)[j].TouchesConfigs()
  {
    forall j | 1 <= j < |[c] + calls| ensures ([c] + calls)[j] == calls[j - 1] {
    }
  }

  /**
   * With a private address requested and both addresses found: an empty
   * configuration list fails before any boot; otherwise the list, the
   * helper update on the first configuration and the boot with that same
   * configuration are the calls that follow the creation, in that order.
   */
  lemma CreatePrivateSequence(d: Driver, key: string, replies: CreateReplies)
    requires replies.created.Ok? && d.createPrivateIP
    requires var r := Create(d, Some(key), replies);
      r.driver.ipAddress != "" && r.driver.privateIPAddress != ""
    requires replies.configs.Ok?
    ensures var r := Create(d, Some(key), replies);
      var id := replies.created.value.id;
      var cs := replies.configs.value;
      && (|cs| == 0 ==>
            && r.failure == Some(ConfigNotFound(id))
            && forall j :: 0 <= j < |r.calls| ==> !r.calls[j].BootInstance?)
      && (|cs| > 0 && replies.updated.None? ==>
            && |r.calls| >= 4
            && r.calls[1] == Api.ListInstanceConfigs(id)
            && r.calls[2] == Api.UpdateInstanceConfig(id, cs[0].id, cs[0].(networkHelper := true))
            && r.calls[3] == Api.BootInstance(id, cs[0].id))
  {
    var inst := replies.created.value;
    var rest := AfterSubmit(d, inst, replies);
    var h := EnableNetworkHelper(inst.id, replies);
    var r := Create(d, Some(key), replies);
    assert r.calls == [Api.CreateInstance(CreateRequest(d, key))] + rest.calls;
    assert rest.calls[..|h.0|] == h.0;
  }

  /**
   * A successful creation holds a public address, a private one when
   * requested (and then the helper update and the boot both went through),
   * and ends by waiting for the new instance to be running.
   */
  lemma CreateSuccess(d: Driver, publicKey: Option<string>, replies: CreateReplies)
    ensures var r := Create(d, publicKey, replies);
      r.failure.None? <==>
        publicKey.Some? && replies.created.Ok? && ReachesWait(d, replies.created.value, replies)
        && replies.running.None?
    ensures var r := Create(d, publicKey, replies);
      publicKey.Some? && replies.created.Ok? && ReachesWait(d, replies.created.value, replies)
        && replies.running.Some? ==>
          && r.failure == Some(WaitFailed(replies.running.value))
          && r.calls[|r.calls| - 1] ==
               Api.WaitForInstanceStatus(replies.created.value.id, Api.Running, BootTimeoutSeconds)
    ensures var r := Create(d, publicKey, replies);
      r.failure.None? ==>
        && publicKey.Some? && replies.created.Ok? && replies.running.None?
        && (d.createPrivateIP ==> replies.updated.None? && replies.booted.None?)
        && r.driver.ipAddress != ""
        && (d.createPrivateIP ==> r.driver.privateIPAddress != "")
        && |r.calls| >= 2
        && r.calls[|r.calls| - 1] ==
             Api.WaitForInstanceStatus(replies.created.value.id, Api.Running, BootTimeoutSeconds)
  {
  }

  /**
   * A private-address request answered with 10.0.0.5 and 203.0.113.9 keeps
   * 203.0.113.9 as the public and 10.0.0.5 as the private address, and sets
   * the network helper on configuration 9 before booting it.
   */
  lemma PrivateRequestExample(key: string)
    ensures var d := NewDriver("host", "").(createPrivateIP := true);
      var inst := Api.Instance(42, "host", "us-east", [Net.IPv4(10, 0, 0, 5), Net.IPv4(203, 0, 113, 9)], Api.Offline);
      var replies := CreateReplies(Ok(inst), Ok([Api.InstanceConfig(9, "boot", false)]), None, None, None);
      var r := Create(d, Some(key), replies);
      && r.failure.None?
      && r.driver.ipAddress == "203.0.113.9"
      && r.driver.privateIPAddress == "10.0.0.5"
      && r.calls[1..] == [
           Api.ListInstanceConfigs(42),
           Api.UpdateInstanceConfig(42, 9, Api.InstanceConfig(9, "boot", true)),
           Api.BootInstance(42, 9),
           Api.WaitForInstanceStatus(42, Api.Running, BootTimeoutSeconds)]
  {
    var d := NewDriver("host", "").(createPrivateIP := true);
    var inst := Api.Instance(42, "host", "us-east", [Net.IPv4(10, 0, 0, 5), Net.IPv4(203, 0, 113, 9)], Api.Offline);
    var replies := CreateReplies(Ok(inst), Ok([Api.InstanceConfig(9, "boot", false)]), None, None, None);
    var d1 := Recorded(d, inst);
    ExampleAddresses(d, inst);
    var h := EnableNetworkHelper(42, replies);
    assert h.1.None? && h.0 == [
      Api.ListInstanceConfigs(42),
      Api.UpdateInstanceConfig(42, 9, Api.InstanceConfig(9, "boot", true)),
      Api.BootInstance(42, 9)];
    var rest := AfterSubmit(d, inst, replies);
    assert rest.driver == d1;
    assert rest.calls == h.0 + [Api.WaitForInstanceStatus(42, Api.Running, BootTimeoutSeconds)];
    var r := Create(d, Some(key), replies);
    assert r.calls == [Api.CreateInstance(CreateRequest(d, key))] + rest.calls;
    assert r.calls[1..] == rest.calls;
  }

  /** The addresses picked out of the reply in `PrivateRequestExample`. */
  lemma ExampleAddresses(d: Driver, inst: Api.Instance)
    requires d.createPrivateIP && d.ipAddress == "" && d.privateIPAddress == ""
    requires inst.ipv4 == [Net.IPv4(10, 0, 0, 5), Net.IPv4(203, 0, 113, 9)]
    ensures Recorded(d, inst).ipAddress == "203.0.113.9"
    ensures Recorded(d, inst).privateIPAddress == "10.0.0.5"
  {
    var a, b := Net.IPv4(10, 0, 0, 5), Net.IPv4(203, 0, 113, 9);
    FormatExamples();
    Net.IsPrivateIff(a);
    Net.IsPrivateIff(b);
    assert [a, b][1..] == [b] && [b][1..] == [];
    assert Classify([a, b], true, "", "") == Classify([b], true, "", Net.Format(a));
    assert Classify([b], true, "", Net.Format(a)) == Classify([], true, Net.Format(b), Net.Format(a));
  }

  lemma FormatExamples()
    ensures Net.Format(Net.IPv4(203, 0, 113, 9)) == "203.0.113.9"
    ensures Net.Format(Net.IPv4(10, 0, 0, 5)) == "10.0.0.5"
  {
    assert FormatNat(203) == FormatNat(20) + ['3'];
    assert FormatNat(20) == FormatNat(2) + ['0'];
    assert FormatNat(113) == FormatNat(11) + ['3'];
    assert FormatNat(11) == FormatNat(1) + ['1'];
    assert FormatNat(10) == FormatNat(1) + ['0'];
  }

  /** A reply holding only a private address, without a private request, fails for want of a public one. */
  lemma OnlyPrivateAddressExample(key: string)
    ensures var inst := Api.Instance(42, "host", "us-east", [Net.IPv4(10, 0, 0, 5)], Api.Offline);
      var replies := CreateReplies(Ok(inst), Ok([]), None, None, None);
      var r := Create(NewDriver("host", ""), Some(key), replies);
      r.failure == Some(PublicAddressNotFound) && r.driver.instanceID == 42
  {
    Net.IsPrivateIff(Net.IPv4(10, 0, 0, 5));
  }
}

=== FILE: text.dfy ===
/**
 * The pieces of Go's `strings` and `strconv` packages the driver relies on,
 * over Dafny strings (sequences of Unicode scalar values).
 */
module Text {
  import opened Common

  // ---------------------------------------------------------------------
  // Decimal digits
  // ---------------------------------------------------------------------

  predicate IsDigit(c: char) {
    '0' <= c <= '9'
  }

  predicate AllDigits(s: string) {
    forall i :: 0 <= i < |s| ==> IsDigit(s[i])
  }

  function DigitValue(c: char): (v: nat)
    requires IsDigit(c)
    ensures v < 10
  {
    c as int - '0' as int
  }

  function DigitChar(v: nat): (c: char)
    requires v < 10
    ensures IsDigit(c) && DigitValue(c) == v
  {
    (v + '0' as int) as char
  }

  /** The number a non-empty run of decimal digits denotes, most significant first. */
  function DecimalValue(s: string): (v: nat)
    requires AllDigits(s)
    decreases |s|
  {
    if |s| == 0 then 0 else DecimalValue(s[..|s| - 1]) * 10 + DigitValue(s[|s| - 1])
  }

  /** Shortest decimal rendering of a natural number (`%d`, `strconv.Itoa`). */
  function FormatNat(n: nat): (s: string)
    ensures |s| > 0 && AllDigits(s)
    ensures s[0] == '0' <==> n == 0
    decreases n
  {
    if n < 10 then [DigitChar(n)] else FormatNat(n / 10) + [DigitChar(n % 10)]
  }

  /** Reading back a rendered number gives the number. */
  lemma {:induction false} DecimalValueOfFormatNat(n: nat)
    ensures DecimalValue(FormatNat(n)) == n
    decreases n
  {
    var s := FormatNat(n);
    if n < 10 {
      assert s[..|s| - 1] == [];
    } else {
      DecimalValueOfFormatNat(n / 10);
      assert s[..|s| - 1] == FormatNat(n / 10);
    }
  }

  /** Decimal rendering of a signed integer, as Go's `%d` verb prints it. */
  function FormatInt(i: int): (s: string)
    ensures |s| > 0
    ensures s[0] == '-' <==> i < 0
    ensures AllDigits(s[1..])
    ensures i >= 0 ==> AllDigits(s) && (s[0] == '0' <==> i == 0)
    ensures i < 0 ==> |s| > 1 && s[1] != '0'
  {
    if i < 0 then "-" + FormatNat(-i) else FormatNat(i)
  }

  // ---------------------------------------------------------------------
  // strconv.Atoi on a 64-bit platform
  // ---------------------------------------------------------------------

  const MinInt: int := -0x8000_0000_0000_0000
  const MaxInt: int := 0x7FFF_FFFF_FFFF_FFFF

  predicate IsSign(c: char) {
    c == '+' || c == '-'
  }

  /** The digits of an integer text: everything after a leading sign, if there is one. */
  function Magnitude(s: string): (m: string)
    ensures |m| <= |s| && m == s[|s| - |m|..]
  {
    if |s| > 0 && IsSign(s[0]) then s[1..] else s
  }

  /** An optional sign followed by at least one decimal digit (any number of leading zeros). */
  predicate IsIntegerText(s: string) {
    |Magnitude(s)| > 0 && AllDigits(Magnitude(s))
  }

  /** The value an integer text denotes, negated exactly when it starts with '-'. */
  function IntegerValue(s: string): (v: int)
    requires IsIntegerText(s)
  {
    if s[0] == '-' then -(DecimalValue(Magnitude(s)) as int) else DecimalValue(Magnitude(s))
  }

  /**
   * `strconv.Atoi`: an optional sign followed by at least one decimal digit,
   * whose value fits Go's 64-bit `int`; anything else is an error (None).
   */
  function Atoi(s: string): (r: Option<int>)
    ensures r.Some? <==> IsIntegerText(s) && MinInt <= IntegerValue(s) <= MaxInt
    ensures r.Some? ==> r.value == IntegerValue(s)
    ensures r.Some? ==> |s| > 0 && (IsSign(s[0]) || IsDigit(s[0])) && AllDigits(s[1..])
    ensures r.Some? ==> (r.value < 0 ==> s[0] == '-')
  {
    if |s| == 0 then None
    else
      var digits := if IsSign(s[0]) then s[1..] else s;
      if |digits| == 0 || !AllDigits(digits) then None
      else
        var v: int := if s[0] == '-' then -(DecimalValue(digits) as int) else DecimalValue(digits);
        if MinInt <= v <= MaxInt then Some(v) else None
  }

  /** Every 64-bit integer survives a print/parse round trip. */
  lemma AtoiOfFormatInt(n: int)
    requires MinInt <= n <= MaxInt
    ensures Atoi(FormatInt(n)) == Some(n)
  {
    var s := FormatInt(n);
    if n < 0 {
      assert s[1..] == FormatNat(-n);
      DecimalValueOfFormatNat(-n);
    } else {
      DecimalValueOfFormatNat(n);
    }
  }

  /**
   * Texts on the edge of the id/reference decision: leading zeros and a '+'
   * are accepted, "-0" is zero, and a lone sign or a '/' is rejected.
   */
  lemma AtoiExamples()
    ensures Atoi("007") == Some(7)
    ensures Atoi("+5") == Some(5)
    ensures Atoi("-0") == Some(0)
    ensures Atoi("+") == None && Atoi("") == None
    ensures Atoi("alice/setup") == None
  {
    AtoiLeadingZeros();
    AtoiSigns();
    AtoiRejects();
  }

  lemma AtoiLeadingZeros()
    ensures Atoi("007") == Some(7)
  {
    var s := "007";
    assert s[..2] == "00" && s[..2][..1] == "0" && s[..2][..1][..0] == "";
    assert Magnitude(s) == s;
    assert DecimalValue("0") == 0;
    assert DecimalValue("00") == 0;
    assert DecimalValue(s) == 7;
  }

  lemma AtoiSigns()
    ensures Atoi("+5") == Some(5)
    ensures Atoi("-0") == Some(0)
  {
    assert Magnitude("+5") == "5" && Magnitude("-0") == "0";
  }

  lemma AtoiRejects()
    ensures Atoi("+") == None && Atoi("") == None
    ensures Atoi("alice/setup") == None
  {
    assert !IsDigit("alice/setup"[0]);
  }

  // ---------------------------------------------------------------------
  // strings.Split, strings.SplitN(_, _, 2), strings.Contains
  // ---------------------------------------------------------------------

  /** Number of occurrences of `c` in `s`. */
  function Count(s: string, c: char): (n: nat)
    decreases |s|
  {
    if |s| == 0 then 0 else (if s[0] == c then 1 else 0) + Count(s[1..], c)
  }

  /** `strings.Split` with a one-character separator: the pieces between separators. */
  function Split(s: string, sep: char): (parts: seq<string>)
    ensures |parts| > 0
    ensures forall i :: 0 <= i < |parts| ==> sep !in parts[i]
    decreases |s|
  {
    if |s| == 0 then [""]
    else
      var rest := Split(s[1..], sep);
      if s[0] == sep then [""] + rest
      else [[s[0]] + rest[0]] + rest[1..]
  }

  /** `strings.Join` with a one-character separator. */
  function Join(parts: seq<string>, sep: char): (s: string)
    decreases |parts|
  {
    if |parts| == 0 then ""
    else if |parts| == 1 then parts[0]
    else parts[0] + [sep] + Join(parts[1..], sep)
  }

  /** Split loses nothing: joining the pieces restores the text. */
  lemma {:induction false} JoinSplit(s: string, sep: char)
    ensures Join(Split(s, sep), sep) == s
    decreases |s|
  {
    if |s| > 0 {
      var rest := Split(s[1..], sep);
      JoinSplit(s[1..], sep);
      if s[0] == sep {
        assert ([""] + rest)[1..] == rest;
        assert s == [sep] + s[1..];
      } else {
        var parts := [[s[0]] + rest[0]] + rest[1..];
        assert parts[1..] == rest[1..];
        if |rest| == 1 {
          assert s == [s[0]] + s[1..];
        } else {
          assert Join(rest, sep) == rest[0] + [sep] + Join(rest[1..], sep);
          assert s == [s[0]] + s[1..];
        }
      }
    }
  }

  /** Split yields exactly one more piece than there are separators. */
  lemma {:induction false} SplitCount(s: string, sep: char)
    ensures |Split(s, sep)| == Count(s, sep) + 1
    decreases |s|
  {
    if |s| > 0 {
      SplitCount(s[1..], sep);
    }
  }

  /** Splitting at a first separator peels off exactly the text before it. */
  lemma {:induction false} SplitAtSeparator(x: string, sep: char, y: string)
    requires sep !in x
    ensures Split(x + [sep] + y, sep) == [x] + Split(y, sep)
    decreases |x|
  {
    var s := x + [sep] + y;
    if |x| == 0 {
      assert s[1..] == y;
    } else {
      assert s[1..] == x[1..] + [sep] + y;
      SplitAtSeparator(x[1..], sep, y);
      assert [x[0]] + x[1..] == x;
    }
  }

  /** Position of the first occurrence of `c` in `s`. */
  function IndexOf(s: string, c: char): (i: nat)
    requires c in s
    ensures i < |s| && s[i] == c
    ensures forall k :: 0 <= k < i ==> s[k] != c
    decreases |s|
  {
    if s[0] == c then 0
    else
      assert c in s[1..] by {
        var k :| 0 <= k < |s| && s[k] == c;
        assert s[1..][k - 1] == c;
      }
      1 + IndexOf(s[1..], c)
  }

  /**
   * `strings.SplitN(s, sep, 2)`: the whole text when the separator is absent,
   * otherwise the text before the first separator and everything after it.
   */
  function SplitN2(s: string, sep: char): (parts: seq<string>)
    ensures |parts| == 1 || |parts| == 2
    ensures |parts| == 2 <==> sep in s
    ensures |parts| == 1 ==> parts[0] == s
    ensures |parts| == 2 ==> sep !in parts[0] && parts[0] + [sep] + parts[1] == s
  {
    if sep in s then
      var i := IndexOf(s, sep);
      assert s == s[..i] + [sep] + s[i + 1..];
      [s[..i], s[i + 1..]]
    else [s]
  }

  predicate HasPrefix(s: string, p: string) {
    |p| <= |s| && s[..|p|] == p
  }

  /** `strings.Contains`, written as Go's scan: a prefix here or further on. */
  predicate Contains(s: string, sub: string)
    decreases |s|
  {
    HasPrefix(s, sub) || (|s| > 0 && Contains(s[1..], sub))
  }

  /** The scan finds `sub` exactly when it starts at some position of `s`. */
  lemma {:induction false} ContainsIff(s: string, sub: string)
    ensures Contains(s, sub) <==> exists i :: 0 <= i <= |s| && HasPrefix(s[i..], sub)
    decreases |s|
  {
    if HasPrefix(s, sub) {
      assert s[0..] == s;
    } else if |s| > 0 {
      ContainsIff(s[1..], sub);
      if Contains(s[1..], sub) {
        var i :| 0 <= i <= |s[1..]| && HasPrefix(s[1..][i..], sub);
        assert s[1..][i..] == s[i + 1..];
      }
      if exists i :: 0 <= i <= |s| && HasPrefix(s[i..], sub) {
        var i :| 0 <= i <= |s| && HasPrefix(s[i..], sub);
        assert i != 0 by { assert s[0..] == s; }
        assert s[1..][i - 1..] == s[i..];
      }
    } else {
      forall i | 0 <= i <= |s|
        ensures !HasPrefix(s[i..], sub)
      {
        assert s[i..] == s;
      }
    }
  }

  // ---------------------------------------------------------------------
  // strings.TrimSpace
  // ---------------------------------------------------------------------

  /** Go's `unicode.IsSpace`: the Unicode White_Space characters. */
  predicate IsSpace(c: char) {
    || c == ' '
    || '\t' <= c <= '\r'
    || c == '\U{0085}' || c == '\U{00A0}' || c == '\U{1680}'
    || '\U{2000}' <= c <= '\U{200A}'
    || c == '\U{2028}' || c == '\U{2029}' || c == '\U{202F}' || c == '\U{205F}'
    || c == '\U{3000}'
  }

  /** Drops leading white space: the longest suffix not starting with a space. */
  function TrimLeft(s: string): (r: string)
    ensures |r| <= |s| && r == s[|s| - |r|..]
    ensures forall k :: 0 <= k < |s| - |r| ==> IsSpace(s[k])
    ensures r == [] || !IsSpace(r[0])
    decreases |s|
  {
    if |s| > 0 && IsSpace(s[0]) then TrimLeft(s[1..]) else s
  }

  /** Drops trailing white space: the longest prefix not ending with a space. */
  function TrimRight(s: string): (r: string)
    ensures |r| <= |s| && r == s[..|r|]
    ensures forall k :: |r| <= k < |s| ==> IsSpace(s[k])
    ensures r == [] || !IsSpace(r[|r| - 1])
    decreases |s|
  {
    if |s| > 0 && IsSpace(s[|s| - 1]) then TrimRight(s[..|s| - 1]) else s
  }

  /**
   * `strings.TrimSpace`: the slice of `s` left once its leading and trailing
   * white space is dropped; nothing but white space is dropped.
   */
  function TrimSpace(s: string): (r: string)
    ensures |r| <= |s|
    ensures r == [] || (!IsSpace(r[0]) && !IsSpace(r[|r| - 1]))
    ensures TrimmedAt(s, r, |s| - |TrimLeft(s)|)
  {
    TrimBothAt(s, TrimLeft(s), TrimRight(TrimLeft(s)));
    TrimRight(TrimLeft(s))
  }

  /**
   * Dropping white space from the front of `s` (leaving `l`) and then from
   * the back of `l` (leaving `r`) leaves the slice of `s` where `l` starts.
   */
  lemma TrimBothAt(s: string, l: string, r: string)
    requires |l| <= |s| && l == s[|s| - |l|..]
    requires forall j :: 0 <= j < |s| - |l| ==> IsSpace(s[j])
    requires |r| <= |l| && r == l[..|r|]
    requires forall j :: |r| <= j < |l| ==> IsSpace(l[j])
    ensures TrimmedAt(s, r, |s| - |l|)
  {
    var k := |s| - |l|;
    assert r == s[k..k + |r|];
    forall j | k + |r| <= j < |s| ensures IsSpace(s[j]) {
      assert s[j] == l[j - k];
    }
  }

  /** `r` is `s` from position `k` on, with only white space before and after it. */
  predicate TrimmedAt(s: string, r: string, k: int) {
    && 0 <= k <= |s| - |r|
    && r == s[k..k + |r|]
    && (forall j :: 0 <= j < k ==> IsSpace(s[j]))
    && (forall j :: k + |r| <= j < |s| ==> IsSpace(s[j]))
  }

  /** Text that already has no white space at its ends is left alone. */
  lemma TrimSpaceFixesTrimmed(s: string)
    requires s == [] || (!IsSpace(s[0]) && !IsSpace(s[|s| - 1]))
    ensures TrimSpace(s) == s
  {
  }

  /** Trimming twice is trimming once. */
  lemma TrimSpaceIdempotent(s: string)
    ensures TrimSpace(TrimSpace(s)) == TrimSpace(s)
  {
    TrimSpaceFixesTrimmed(TrimSpace(s));
  }
}
